=== FILE: README.md ===
# Proof-request step logic of the BC Wallet end-to-end tests

This project models the decision logic of the proof-request step definitions
of the BC Wallet behavioural test suite (`proof.py`). Those steps make a
verifier send a proof request to the holder's mobile wallet. They then check
what the wallet shows against expectations from the scenario's tables and the
proof-request fixture. The model covers six pieces of that logic:

- **Expectation lookup** (`Expectations.Lookup`). It picks the row of the
  scenario table meant for the live verifier's agent type, and splits that
  row's `;`-separated attribute and value cells.
- **Detail check** (`Expectations.CheckDetails`,
  `Expectations.ViewProofRequestContents`). It compares what the
  proof-request screen shows with the expected details: the expected `who`
  must be a substring of the shown one, and the shown lists must be contained
  in the expected lists.
- **Credential display name** (`DisplayName.Display`). Underscores become
  spaces, then Python's `str.title()` is applied, restricted to ASCII.
- **Attribute reconciler** (`Reconciler.ReconcileAsWritten`). For each
  requested attribute group and predicate, it records which accepted
  credential supplies it. It is modelled exactly as written; a corrected
  version, `Reconciler.ReconcileIntended`, sits beside it (see Findings).
- **Proof request receipt** (`Fixtures.ReceiveProofRequest`). It chooses the
  fixture path, merges the non-revocation interval into the loaded document,
  and decides what is sent and what is kept for later steps.
- **Step plans** (`StepPlans`). These are the ordered child-step phrases that
  the "user has a proof request" composites hand to the step runner.

The test runner, the UI driver, the agent controllers and the interval
builder are outside the model. Values that come from them are parameters:
the live verifier type, the shown details, the scenario name, the fixture
files as a map from path to document, and the interval builder as a function.

Modules: `Wrappers` (Option/Result), `Text` (the Python string operations
used, on ASCII), `DisplayName`, `Expectations`, `ProofDocument` (the proof
request and credential records), `Reconciler`, `Fixtures`, `StepPlans`.

In three places the code does not do what its comments and step names
suggest. The model follows the code:

- The reconciler's credential test does not check set intersection. It
  holds for any credential with a non-empty attribute list.
- The reconciler's `attributes` field holds a group's whole name list, or a
  predicate's name. It is not a single attribute name.
- A group can record more than one entry, so the result can be longer than
  the number of groups plus predicates.

Two more behaviours: nested steps have no depth limit, and a missing
fixture is printed and the step carries on.

## Model

| member | source | states |
|---|---|---|
| `Expectations.Lookup` | aries-mobile-tests/features/steps/bc_wallet/proof.py:421-436 | Fails exactly when no row has the live verifier type, and the error carries that type. Otherwise it returns the who/attributes/values of the first row with that type. |
| `Expectations.ErrorMessage` | aries-mobile-tests/features/steps/bc_wallet/proof.py:433-435 | The lookup failure message names the unmatched verifier type. |
| `Expectations.LookupIgnoresLaterRows` | aries-mobile-tests/features/steps/bc_wallet/proof.py:424-431 | Once a matching row exists, appending any rows after it leaves the result unchanged. The first match wins. |
| `Expectations.LookupSkipsOtherTypes` | aries-mobile-tests/features/steps/bc_wallet/proof.py:424-425 | Rows of other verifier types placed in front never change the result. |
| `Expectations.LookupAcapyEitherOrder` | aries-mobile-tests/features/steps/bc_wallet/proof.py:424-431 | With rows for `acapy` and `aca-py-old` in either order, live type `acapy` selects the `acapy` row. |
| `Expectations.FromRow` | aries-mobile-tests/features/steps/bc_wallet/proof.py:426-428 | The expectations keep the row's `who`. The attribute and value lists re-join with `;` to the row's cells, and each has one more piece than its cell has `;`. |
| `Expectations.LookupSplitsCells` | aries-mobile-tests/features/steps/bc_wallet/proof.py:427-428 | The returned lists re-join with `;` to the row's cells. Each has one more piece than its cell has `;`. |
| `Expectations.CheckAllListed` | aries-mobile-tests/features/steps/bc_wallet/proof.py:151-152 | Returns true iff every shown item is a member of the expected list. An empty shown list passes. |
| `Expectations.CheckDetails` | aries-mobile-tests/features/steps/bc_wallet/proof.py:150-152 | Passes iff expected `who` is a substring of the shown `who` and shown attributes and values are contained in the expected ones. Otherwise it reports the first of the three asserts that fails. |
| `Expectations.ViewProofRequestContents` | aries-mobile-tests/features/steps/bc_wallet/proof.py:143-152 | Fails with the verifier type iff no row matches. Passes iff the first matching row's details agree with the screen. |
| `Text.Contains` | aries-mobile-tests/features/steps/bc_wallet/proof.py:150 | Substring search; true iff the needle occurs at some position of the string. |
| `Text.Split` | aries-mobile-tests/features/steps/bc_wallet/proof.py:427-428 | `split(';')` returns one more piece than the string has `;`, so an empty cell gives one empty piece. No piece contains `;`. |
| `Text.Join` | aries-mobile-tests/features/steps/bc_wallet/proof.py:427-428 | Joining no pieces gives the empty string. Otherwise the result starts with the first piece, followed by a `;` when there is a second piece. Joining `;`-free pieces gives one `;` fewer than there are pieces. |
| `Text.JoinLayout` | aries-mobile-tests/features/steps/bc_wallet/proof.py:427-428 | Joining one or more pieces lays them out in order. Piece k starts after the earlier pieces and one `;` each, a `;` follows every piece but the last, and nothing follows the last piece. |
| `Text.JoinSplit` | aries-mobile-tests/features/steps/bc_wallet/proof.py:427-428 | Joining the pieces of `split(';')` with `;` gives back the original string. |
| `Text.SplitJoin` | aries-mobile-tests/features/steps/bc_wallet/proof.py:427-428 | Splitting a join of one or more `;`-free pieces returns those pieces. |
| `Text.Title` | aries-mobile-tests/features/steps/bc_wallet/proof.py:173 | `title()` keeps the length. It upper-cases a character iff it is first or the one before it is not a letter, and lower-cases the rest. |
| `Text.ReplaceChar` | aries-mobile-tests/features/steps/bc_wallet/proof.py:173 | `replace` keeps the length, changes each occurrence of the old character to the new one and nothing else, so no old character remains. |
| `Text.Lower` | aries-mobile-tests/features/steps/bc_wallet/proof.py:105 | `lower()` keeps the length and lower-cases each character. No upper-case letter remains, and non-letters are unchanged. |
| `Text.TitleIdempotent` | aries-mobile-tests/features/steps/bc_wallet/proof.py:173 | Title-casing twice equals title-casing once. |
| `DisplayName.Display` | aries-mobile-tests/features/steps/bc_wallet/proof.py:173 | Each position is decided by the schema name. An underscore shows as a space. A character that starts the name or follows a non-letter (including an underscore) is upper-cased, and any other is lower-cased. |
| `DisplayName.DisplayHasNoUnderscore` | aries-mobile-tests/features/steps/bc_wallet/proof.py:173 | The display name has no underscore. Each non-letter stays in place, with `_` turned into a space. |
| `DisplayName.DisplayIdempotent` | aries-mobile-tests/features/steps/bc_wallet/proof.py:173 | Applying the transform to a display name changes nothing. |
| `DisplayName.DisplayPermanentResident` | aries-mobile-tests/features/steps/bc_wallet/proof.py:173 | `permanent_resident` is shown as `Permanent Resident`. |
| `Reconciler.AnyNameMatches` | aries-mobile-tests/features/steps/bc_wallet/proof.py:170 | The self-comparing `any(...)` test holds exactly when the credential's attribute list is non-empty. |
| `Reconciler.Put` | aries-mobile-tests/features/steps/bc_wallet/proof.py:163 | Setting a key keeps every existing key in place and every other key's value. The key is present afterwards with the new value. A new key is appended last and grows the dictionary by one. |
| `Reconciler.Update` | aries-mobile-tests/features/steps/bc_wallet/proof.py:163 | `dict.update` keeps every existing key at its position and appends at most one entry per key being set. |
| `Reconciler.UpdateFacts` | aries-mobile-tests/features/steps/bc_wallet/proof.py:163 | After the update, appended keys are keys being set. Every key being set holds the new value, and other keys keep theirs. |
| `Reconciler.UpdateAppendsNewKeys` | aries-mobile-tests/features/steps/bc_wallet/proof.py:163 | Every key being set is present after the update. Appended keys were not there before, and none is appended twice. |
| `Reconciler.FirstWithAttributes` | aries-mobile-tests/features/steps/bc_wallet/proof.py:167-170 | Returns the first credential in collection order with a non-empty attribute list, or none if there is none. |
| `Reconciler.ScanCredentials` | aries-mobile-tests/features/steps/bc_wallet/proof.py:166-179 | One request's credential loop records nothing, or exactly one entry per value of the working dictionary, in dictionary order. |
| `Reconciler.ScanCredentialsPicksFirstWithAttributes` | aries-mobile-tests/features/steps/bc_wallet/proof.py:166-179 | Within one group or predicate, every entry added comes from the first credential with attributes, one per `names` value. Nothing is added if no credential has attributes. |
| `Reconciler.FirstLacking` | aries-mobile-tests/features/steps/bc_wallet/proof.py:162-185 | Returns the first request in document order whose object has members but not the member the comprehension reads, or none. |
| `Reconciler.ScanRequests` | aries-mobile-tests/features/steps/bc_wallet/proof.py:162-180 | The request loop raises iff some request lacks the member it reads, and the `KeyError` names the member of the first such request. |
| `Reconciler.AttributeLoopError` | aries-mobile-tests/features/steps/bc_wallet/proof.py:162-163 | The attribute-group loop raises iff some group has members but no `names`, and the error names `names`. |
| `Reconciler.PredicateLoopError` | aries-mobile-tests/features/steps/bc_wallet/proof.py:184-185 | The predicate loop raises iff some predicate has members but no `name`, and the error names `name`. |
| `Reconciler.AsWrittenSucceeds` | aries-mobile-tests/features/steps/bc_wallet/proof.py:155-201 | When no member is missing, both loops complete, and the result is the attribute loop's entries followed by the predicate loop's. |
| `Reconciler.ReconcileAsWritten` | aries-mobile-tests/features/steps/bc_wallet/proof.py:155-201 | Raising inside the loops, it fails iff a non-empty group lacks `names` or a non-empty predicate lacks `name`. The error is the one the document predicts: a missing `names` wins, because the attribute loop runs first. |
| `Reconciler.AsWrittenAllFromFirstCredential` | aries-mobile-tests/features/steps/bc_wallet/proof.py:162-201 | Whatever names are requested, every entry names the first credential with attributes. The result is empty when no credential has attributes. |
| `Reconciler.ScanRequestsRecordsRequestedValues` | aries-mobile-tests/features/steps/bc_wallet/proof.py:169-176 | Every recorded value is a value of the working dictionary or of a request scanned. |
| `Reconciler.AsWrittenRecordsRequestedValues` | aries-mobile-tests/features/steps/bc_wallet/proof.py:162-201 | Each recorded `attributes` is a requested group's whole name list or a requested predicate's name. No predicate entry precedes an attribute-group entry. |
| `Reconciler.ScanRequestsAppend` | aries-mobile-tests/features/steps/bc_wallet/proof.py:162-180 | Scanning `a + b` gives the outcome of `a`, then that of `b` scanned with the dictionary `a` left behind. An error in `a` wins. |
| `Reconciler.ScanRequestsRecordsBlocks` | aries-mobile-tests/features/steps/bc_wallet/proof.py:162-180 | When the request loop does not raise, its result is, request after request, one credential scan with the dictionary as it stands after that request's `names.update`. |
| `Reconciler.UpdateKeys` | aries-mobile-tests/features/steps/bc_wallet/proof.py:163 | After `names.update` the keys are exactly the old keys plus the keys being set. Distinct keys stay distinct. |
| `Reconciler.FoldKeys` | aries-mobile-tests/features/steps/bc_wallet/proof.py:162-163 | Since `names` is never cleared, after some groups its keys are exactly the member keys those groups name, each once. |
| `Reconciler.OneEntryPerKeySeen` | aries-mobile-tests/features/steps/bc_wallet/proof.py:162-176 | When some credential has attributes, request `i` records one entry per distinct member key of requests `0..i`, all naming that first credential. |
| `Reconciler.AsWrittenDocumentOrder` | aries-mobile-tests/features/steps/bc_wallet/proof.py:159-201 | The entries of the first n groups, and of all groups plus the first m predicates, are prefixes of the full result. So entries follow document order. |
| `Reconciler.OneCredentialRecordsAll` | aries-mobile-tests/features/steps/bc_wallet/proof.py:167-179 | A collection of one credential with attributes records one entry per dictionary value, naming that credential. |
| `Reconciler.SingleNamesGroup` | aries-mobile-tests/features/steps/bc_wallet/proof.py:161-176 | A document with one group that has only a `names` member produces a one-key dictionary and scans the credentials once with it. |
| `Reconciler.PermanentResidentExample` | aries-mobile-tests/features/steps/bc_wallet/proof.py:161-176 | A `given_name` request against a `permanent_resident` credential records `Permanent Resident` with the list `["given_name"]`, both as written and corrected. |
| `Reconciler.AsWrittenReportsCredentialWithoutRequestedName` | aries-mobile-tests/features/steps/bc_wallet/proof.py:168-176 | As written, a credential holding none of the requested names is still reported. The corrected reconciler reports nothing. |
| `Reconciler.AsWrittenRepeatsStaleNames` | aries-mobile-tests/features/steps/bc_wallet/proof.py:161-176 | As written, two groups yield four entries, and the second group repeats the first group's list. |
| `Reconciler.FirstHolding` | aries-mobile-tests/features/steps/bc_wallet/proof.py:167-170 | Returns the first credential in collection order holding a requested name, or none if no credential holds one. |
| `Reconciler.ReconcileIntended` | aries-mobile-tests/features/steps/bc_wallet/proof.py:158-176 | Fails iff the step as written fails, with the same `KeyError`. Otherwise it records no more entries than there are groups plus predicates. |
| `Reconciler.Contributing` | aries-mobile-tests/features/steps/bc_wallet/proof.py:165-170 | Lists positions of requests that some credential can answer, each within range. |
| `Reconciler.ContributingIncreasing` | aries-mobile-tests/features/steps/bc_wallet/proof.py:162-185 | Those positions are strictly increasing, so they follow document order. |
| `Reconciler.ContributingComplete` | aries-mobile-tests/features/steps/bc_wallet/proof.py:165-170 | Every request that some credential can answer is listed. |
| `Reconciler.IntendedEntriesFollowRequests` | aries-mobile-tests/features/steps/bc_wallet/proof.py:158-179 | The corrected entries are exactly one per answerable request, in order. Each records that request's own value and names the first credential holding one of its names. |
| `Reconciler.ReconcileIntendedPerRequest` | aries-mobile-tests/features/steps/bc_wallet/proof.py:158-201 | For a whole document, the corrected reconciler records one entry per answerable group or predicate, in document order. Each carries that group's own name list or that predicate's own name, so no earlier group's list is repeated. |
| `Reconciler.IntendedNoStaleNames` | aries-mobile-tests/features/steps/bc_wallet/proof.py:161-176 | For the two groups of the stale-names example, the corrected reconciler records exactly `A`, then `B`. |
| `Reconciler.IntendedEntryNamesHolder` | aries-mobile-tests/features/steps/bc_wallet/proof.py:165-179 | A request gets an entry iff some credential holds one of its names. The entry names the first such credential. |
| `Reconciler.IntendedEntriesAppend` | aries-mobile-tests/features/steps/bc_wallet/proof.py:162-201 | The corrected entries of `a + b` are those of `a` followed by those of `b`. |
| `Fixtures.FixturePath` | aries-mobile-tests/features/steps/bc_wallet/proof.py:105 | The path is the data directory, then `Lower(proof)` (so no upper-case letters), then `.json`. |
| `Fixtures.FixturePathCaseInsensitive` | aries-mobile-tests/features/steps/bc_wallet/proof.py:105 | Two proof names read the same fixture iff they agree after lower-casing. |
| `Fixtures.WithInterval` | aries-mobile-tests/features/steps/bc_wallet/proof.py:108-109 | With a non-empty interval, `non_revoked` becomes the builder's interval. Without one, the document is unchanged. Requested attributes and predicates never change. |
| `Fixtures.ReceiveProofRequest` | aries-mobile-tests/features/steps/bc_wallet/proof.py:91-117 | Sends the default request iff there is no proof name. Sends the fixture iff it exists, and the document kept is the one sent. A missing fixture is printed, nothing is sent, and the previous document is kept. |
| `Fixtures.ReceiveIgnoresCase` | aries-mobile-tests/features/steps/bc_wallet/proof.py:105 | The step behaves the same for a proof name and its lower-cased form. |
| `Fixtures.SentDocumentKeepsRequests` | aries-mobile-tests/features/steps/bc_wallet/proof.py:104-115 | The kept document has the fixture's requests. Its interval is the built one iff an interval was given. |
| `StepPlans.ReceiveStepIsNotConnecting` | aries-mobile-tests/features/steps/bc_wallet/proof.py:261-274 | The receive, scan and brought-to steps are never the connecting-screen step. |
| `StepPlans.ReceiveStep` | aries-mobile-tests/features/steps/bc_wallet/proof.py:267-274 | The receive step is the non-revocation phrase iff the interval is non-empty, and the plain phrase otherwise. The proof, and the interval when given, appear verbatim after the fixed text. |
| `StepPlans.PlanProofRequestFor` | aries-mobile-tests/features/steps/bc_wallet/proof.py:249-278 | Starts with the scan step and has no connecting steps iff the scenario name contains "connectionless". Otherwise the first three steps are scan, connecting screen and connecting completes. Then comes the non-revocation or plain receive step, and it always ends with "holder is brought to the proof request". |
| `StepPlans.ConnectionlessSkipsConnecting` | aries-mobile-tests/features/steps/bc_wallet/proof.py:254-265 | A connectionless plan is the connected plan with its two connecting steps removed. |
| `StepPlans.PlanProofRequest` | aries-mobile-tests/features/steps/bc_wallet/proof.py:225-247 | With a non-empty table, the plan is the single "proof request for" step with row 0's proof, and a missing `proof` column is an error. Without a table, the plan is scan, connecting screen, connecting completes, receive the default request, and brought to the proof request. |
| `StepPlans.NoTablePlanSharesConnectingPrelude` | aries-mobile-tests/features/steps/bc_wallet/proof.py:241-247 | The no-table plan shares its connecting prelude and final step with the plan for a named proof. |
| `StepPlans.PlanProofRequestDropsInterval` | aries-mobile-tests/features/steps/bc_wallet/proof.py:229-239 | As written, row 0's interval cell never changes the plan. |
| `StepPlans.PlanProofRequestIntended` | aries-mobile-tests/features/steps/bc_wallet/proof.py:229-239 | The corrected plan fails exactly when the written one does. |
| `StepPlans.IntendedPlanCarriesInterval` | aries-mobile-tests/features/steps/bc_wallet/proof.py:231-239 | The corrected child step carries row 0's proof. When the row has an interval, the step is exactly the prefix, the proof, " including proof of non-revocation at " and the interval, so it differs from the written plan. Without an interval it equals the written plan. |

## Left out

- Step dispatch by the Behave framework: pattern matching, decorators and `execute_steps` are not modelled. The model produces the child-phrase lists and stops there, so the model does not state that running a composite step equals running its child steps.
- The page-source presence asserts after the reconciler (lines 204-208) read the live UI. They are left out with the other UI code. Note that line 208 tests `list in str` for attribute-group entries, which Python rejects with a `TypeError`.
- Page objects, driver capabilities, `sleep`, and the unbounded busy-wait at line 298 are UI automation and timing.
- Agent-controller calls (`send_proof_request`, `revoke_credential`, `get_issuer_type`, `inject_qrcode`) become inputs or the `Sent` outcome.
- `create_non_revoke_interval` and `table_to_str` are imported from a module that is not part of this model. The interval builder is a function parameter, so the model states nothing about the interval it builds from a phrase such as "last 10 minutes".
- File opening and JSON parsing: the file system is a map from path to an already parsed document, and malformed JSON is not modelled.
- `get_expected_proof_request_detail_from_credential` (lines 438-453) is unused, and it returns an undefined name.
- The other composite steps in the file (credential setup, wallet setup, Share/Decline navigation) drive the UI or the agents and are outside the modelled core.
- `Text.Title`: Python's full Unicode `str.title()` is not modelled. Only ASCII letters are cased, and any other character is left unchanged and counts as uncased.
- `Reconciler.ReconcileAsWritten`: credentials are assumed to have `schema_name` and `attributes`, and documents to have `requested_attributes` and `requested_predicates`. A `KeyError` from those lookups is not modelled; only missing `names`/`name` members of request objects are.
- `Fixtures.FixturePathCaseInsensitive`: the iff holds for ASCII case only. Python's `lower()` at line 105 also folds non-ASCII letters, which `Text.Lower` leaves unchanged.
- `Expectations.Lookup`: table rows are assumed to have all four columns; a missing column, which raises `KeyError` in Behave, is not modelled.

## Findings

| source | as written | input that shows it | evidently intended | confidence | as-written member | corrected member |
|---|---|---|---|---|---|---|
| aries-mobile-tests/features/steps/bc_wallet/proof.py:170 | `any(name == name for name in credential["attributes"])` compares each attribute with itself, so any credential with an attribute passes | one group requesting `["given_name"]`; one credential whose attributes are `["email"]` | report only a credential holding a requested name; here, nothing | high, not executed | `Reconciler.AsWrittenReportsCredentialWithoutRequestedName` | `Reconciler.IntendedEntryNamesHolder` |
| aries-mobile-tests/features/steps/bc_wallet/proof.py:163 | `names` is keyed by the group object's member names and is not cleared between groups, so each group records one entry per member key seen so far | groups `{names: A, restrictions: …}` then `{names: B}`; one credential with attributes | one entry per group: `A`, then `B` | high, not executed | `Reconciler.AsWrittenRepeatsStaleNames` | `Reconciler.IntendedNoStaleNames` |
| aries-mobile-tests/features/steps/bc_wallet/proof.py:233-239 | the first row's `interval` cell is read, then dropped from the child step | a table row with proof `P` and interval `I` | the child step "the user has a proof request for P including proof of non-revocation at I" | medium, not executed | `StepPlans.PlanProofRequestDropsInterval` | `StepPlans.IntendedPlanCarriesInterval` |

=== FILE: display_name.dfy ===
/**
 * The display form of a credential's schema name used by the attribute
 * reconciler: underscores become spaces, then Python `str.title()` is
 * applied, so `permanent_resident` is shown as `Permanent Resident`.
 */
module DisplayName {
  import opened Text

  /**
   * Each position is decided by the schema name alone: an underscore shows
   * as a space, a character that starts the name or follows a non-letter
   * (an underscore included) is upper-cased, and any other is lower-cased.
   */
  function Display(schemaName: string): (shown: string)
    ensures |shown| == |schemaName|
    ensures forall i :: 0 <= i < |schemaName| ==>
              shown[i] == (if schemaName[i] == '_' then ' '
                           else if i == 0 || !IsLetter(schemaName[i - 1]) then ToUpper(schemaName[i])
                           else ToLower(schemaName[i]))
  {
    var spaced := ReplaceChar(schemaName, '_', ' ');
    assert forall i :: 0 <= i < |schemaName| ==> IsLetter(spaced[i]) == IsLetter(schemaName[i]);
    Title(spaced)
  }

  /** The display name has no underscores and keeps every other non-letter in place. */
  lemma DisplayHasNoUnderscore(schemaName: string)
    ensures '_' !in Display(schemaName)
    ensures forall i :: 0 <= i < |schemaName| && !IsLetter(schemaName[i]) ==>
              Display(schemaName)[i] == (if schemaName[i] == '_' then ' ' else schemaName[i])
  {
    var spaced := ReplaceChar(schemaName, '_', ' ');
    TitleFromKeepsNonLetters(spaced, false, '_');
  }

  /** Showing an already shown name changes nothing. */
  lemma DisplayIdempotent(schemaName: string)
    ensures Display(Display(schemaName)) == Display(schemaName)
  {
    var shown := Display(schemaName);
    DisplayHasNoUnderscore(schemaName);
    assert ReplaceChar(shown, '_', ' ') == shown;
    TitleIdempotent(ReplaceChar(schemaName, '_', ' '));
  }

  lemma ReplaceUnderscoreBetween(w1: string, w2: string)
    requires forall i :: 0 <= i < |w1| ==> 'a' <= w1[i] <= 'z'
    requires forall i :: 0 <= i < |w2| ==> 'a' <= w2[i] <= 'z'
    ensures ReplaceChar(w1 + "_" + w2, '_', ' ') == w1 + " " + w2
  {
    var name := w1 + "_" + w2;
    forall i | 0 <= i < |name|
      ensures ReplaceChar(name, '_', ' ')[i] == (w1 + " " + w2)[i]
    {
      if i < |w1| {
        assert name[i] == w1[i];
      } else if i > |w1| {
        assert name[i] == w2[i - |w1| - 1];
      }
    }
  }

  /** `word_word` in lower case is shown as two capitalised words. */
  lemma DisplayTwoWords(w1: string, w2: string)
    requires |w1| > 0 && |w2| > 0
    requires forall i :: 0 <= i < |w1| ==> 'a' <= w1[i] <= 'z'
    requires forall i :: 0 <= i < |w2| ==> 'a' <= w2[i] <= 'z'
    ensures Display(w1 + "_" + w2) == [ToUpper(w1[0])] + w1[1..] + " " + [ToUpper(w2[0])] + w2[1..]
  {
    ReplaceUnderscoreBetween(w1, w2);
    TitleTwoWords(w1, w2);
  }

  lemma DisplayPermanentResident()
    ensures Display("permanent_resident") == "Permanent Resident"
  {
    var w1, w2 := "permanent", "resident";
    PermanentResidentWords();
    DisplayTwoWords(w1, w2);
  }

  /** The two words of `permanent_resident`, and the display form spelled out. */
  lemma PermanentResidentWords()
    ensures forall i :: 0 <= i < |"permanent"| ==> 'a' <= "permanent"[i] <= 'z'
    ensures forall i :: 0 <= i < |"resident"| ==> 'a' <= "resident"[i] <= 'z'
    ensures "permanent" + "_" + "resident" == "permanent_resident"
    ensures [ToUpper("permanent"[0])] + "permanent"[1..] + " " + [ToUpper("resident"[0])] + "resident"[1..]
         == "Permanent Resident"
  {
    var w1, w2 := "permanent", "resident";
    assert ToUpper(w1[0]) == 'P' && ToUpper(w2[0]) == 'R';
  }
}

=== FILE: expectations.dfy ===
/**
 * The assertion layer of the proof-request steps: choosing the expected
 * proof-request details for the live verifier from the scenario's table,
 * and checking the details the wallet shows against them.
 */
module Expectations {
  import opened Wrappers
  import opened Text

  /**
   * One row of the scenario's expectation table. `attributes` and `values`
   * are `;`-separated lists written in one cell.
   */
  datatype ExpectationRow = ExpectationRow(
    verifierAgentType: string,
    who: string,
    attributes: string,
    values: string)

  /** The details a row promises, with its lists split apart. */
  datatype Expected = Expected(who: string, attributes: seq<string>, values: seq<string>)

  /** Raised when no row is meant for the verifier in use. */
  datatype LookupError = NoCredentialDetails(verifierType: string)

  function ErrorMessage(e: LookupError): (msg: string)
    ensures IsSubstring(e.verifierType, msg)
  {
    var prefix := "No credential details in table data for ";
    assert OccursAt(e.verifierType, prefix + e.verifierType, |prefix|);
    prefix + e.verifierType
  }

  /** A row's expectations: its `;`-separated cells split into the lists they join back to. */
  function FromRow(row: ExpectationRow): (e: Expected)
    ensures e.who == row.who
    ensures Join(e.attributes, ';') == row.attributes && Join(e.values, ';') == row.values
    ensures |e.attributes| == CountChar(row.attributes, ';') + 1
    ensures |e.values| == CountChar(row.values, ';') + 1
  {
    JoinSplit(row.attributes, ';');
    JoinSplit(row.values, ';');
    Expected(row.who, Split(row.attributes, ';'), Split(row.values, ';'))
  }

  /** Row `i` is the first row whose verifier agent type is `live`. */
  predicate FirstMatchAt(rows: seq<ExpectationRow>, live: string, i: nat) {
    && i < |rows|
    && rows[i].verifierAgentType == live
    && forall j :: 0 <= j < i ==> rows[j].verifierAgentType != live
  }

  lemma FirstMatchUnique(rows: seq<ExpectationRow>, live: string, i: nat, k: nat)
    requires FirstMatchAt(rows, live, i) && FirstMatchAt(rows, live, k)
    ensures i == k
  {
  }

  predicate HasRowFor(rows: seq<ExpectationRow>, live: string) {
    exists i :: 0 <= i < |rows| && rows[i].verifierAgentType == live
  }

  /**
   * Scan the rows in order and take the first one whose verifier agent
   * type is the live verifier's type; no such row is an error naming it.
   */
  function Lookup(rows: seq<ExpectationRow>, live: string): (r: Result<Expected, LookupError>)
    ensures r.Failure? <==> !HasRowFor(rows, live)
    ensures r.Failure? ==> r.error == NoCredentialDetails(live)
    ensures r.Success? ==> exists i: nat :: FirstMatchAt(rows, live, i) && r.value == FromRow(rows[i])
    decreases |rows|
  {
    if |rows| == 0 then Failure(NoCredentialDetails(live))
    else if rows[0].verifierAgentType == live then
      assert FirstMatchAt(rows, live, 0);
      Success(FromRow(rows[0]))
    else
      var r := Lookup(rows[1..], live);
      assert r.Success? ==> exists i: nat :: FirstMatchAt(rows, live, i) && r.value == FromRow(rows[i]) by {
        if r.Success? {
          var i: nat :| FirstMatchAt(rows[1..], live, i) && r.value == FromRow(rows[1..][i]);
          assert FirstMatchAt(rows, live, i + 1);
        }
      }
      r
  }

  /** Once a matching row has been seen, rows after it never matter. */
  lemma {:induction false} LookupIgnoresLaterRows(rows: seq<ExpectationRow>, later: seq<ExpectationRow>, live: string)
    requires HasRowFor(rows, live)
    ensures Lookup(rows + later, live) == Lookup(rows, live)
    decreases |rows|
  {
    if rows[0].verifierAgentType != live {
      assert (rows + later)[1..] == rows[1..] + later;
      var i :| 0 <= i < |rows| && rows[i].verifierAgentType == live;
      assert rows[1..][i - 1] == rows[i];
      LookupIgnoresLaterRows(rows[1..], later, live);
    }
  }

  /** Rows meant for other verifier types never matter, wherever they stand. */
  lemma {:induction false} LookupSkipsOtherTypes(others: seq<ExpectationRow>, rows: seq<ExpectationRow>, live: string)
    requires forall j :: 0 <= j < |others| ==> others[j].verifierAgentType != live
    ensures Lookup(others + rows, live) == Lookup(rows, live)
    decreases |others|
  {
    if |others| > 0 {
      assert (others + rows)[1..] == others[1..] + rows;
      LookupSkipsOtherTypes(others[1..], rows, live);
    } else {
      assert others + rows == rows;
    }
  }

  /** The table's order does not decide which agent type's row is chosen. */
  lemma LookupAcapyEitherOrder(acapy: ExpectationRow, legacy: ExpectationRow)
    requires acapy.verifierAgentType == "acapy"
    requires legacy.verifierAgentType == "aca-py-old"
    ensures Lookup([acapy, legacy], "acapy") == Success(FromRow(acapy))
    ensures Lookup([legacy, acapy], "acapy") == Success(FromRow(acapy))
  {
    assert [acapy, legacy][1..] == [legacy];
    assert [legacy, acapy][1..] == [acapy];
  }

  /**
   * The lists handed back are the cells split on `;`: joining them again
   * gives the cells back, and each has one more piece than its cell has
   * separators.
   */
  lemma LookupSplitsCells(rows: seq<ExpectationRow>, live: string, i: nat)
    requires FirstMatchAt(rows, live, i)
    ensures Lookup(rows, live).Success?
    ensures Join(Lookup(rows, live).value.attributes, ';') == rows[i].attributes
    ensures Join(Lookup(rows, live).value.values, ';') == rows[i].values
    ensures |Lookup(rows, live).value.attributes| == CountChar(rows[i].attributes, ';') + 1
    ensures |Lookup(rows, live).value.values| == CountChar(rows[i].values, ';') + 1
  {
    var r := Lookup(rows, live);
    var k: nat :| FirstMatchAt(rows, live, k) && r.value == FromRow(rows[k]);
    FirstMatchUnique(rows, live, i, k);
    JoinSplit(rows[i].attributes, ';');
    JoinSplit(rows[i].values, ';');
  }

  // ---------------------------------------------------------------------
  // Checking the shown proof-request details.
  // ---------------------------------------------------------------------

  /** What the proof request screen shows. */
  datatype ShownDetails = ShownDetails(who: string, attributes: seq<string>, values: seq<string>)

  predicate AllListed(shown: seq<string>, expected: seq<string>) {
    forall k :: 0 <= k < |shown| ==> shown[k] in expected
  }

  /**
   * The expected `who` appears inside the shown one, and every shown
   * attribute and value is one of the expected ones (shown ⊆ expected, not
   * the reverse).
   */
  predicate DetailsAgree(e: Expected, shown: ShownDetails) {
    && IsSubstring(e.who, shown.who)
    && AllListed(shown.attributes, e.attributes)
    && AllListed(shown.values, e.values)
  }

  /** How the "they can view the contents of the proof request" step ends. */
  datatype ViewOutcome =
    | DetailsShown
    | NoExpectation(verifierType: string)
    | WhoNotShown
    | UnexpectedAttribute
    | UnexpectedValue

  method CheckAllListed(shown: seq<string>, expected: seq<string>) returns (ok: bool)
    ensures ok <==> AllListed(shown, expected)
  {
    var k := 0;
    while k < |shown|
      invariant 0 <= k <= |shown|
      invariant forall j :: 0 <= j < k ==> shown[j] in expected
    {
      if shown[k] !in expected {
        return false;
      }
      k := k + 1;
    }
    return true;
  }

  /** The three assertions, in the order they are made; the first that fails decides. */
  method CheckDetails(e: Expected, shown: ShownDetails) returns (outcome: ViewOutcome)
    ensures outcome == DetailsShown <==> DetailsAgree(e, shown)
    ensures outcome == WhoNotShown <==> !IsSubstring(e.who, shown.who)
    ensures outcome == UnexpectedAttribute <==>
              IsSubstring(e.who, shown.who) && !AllListed(shown.attributes, e.attributes)
    ensures outcome == UnexpectedValue <==>
              IsSubstring(e.who, shown.who) && AllListed(shown.attributes, e.attributes)
              && !AllListed(shown.values, e.values)
    ensures !outcome.NoExpectation?
  {
    var whoShown := Contains(shown.who, e.who);
    if !whoShown {
      return WhoNotShown;
    }
    var attributesOk := CheckAllListed(shown.attributes, e.attributes);
    if !attributesOk {
      return UnexpectedAttribute;
    }
    var valuesOk := CheckAllListed(shown.values, e.values);
    if !valuesOk {
      return UnexpectedValue;
    }
    return DetailsShown;
  }

  /** The whole step: look up the expectation, then check the screen against it. */
  method ViewProofRequestContents(rows: seq<ExpectationRow>, live: string, shown: ShownDetails)
    returns (outcome: ViewOutcome)
    ensures outcome == NoExpectation(live) <==> !HasRowFor(rows, live)
    ensures outcome == DetailsShown <==>
              exists i: nat :: FirstMatchAt(rows, live, i) && DetailsAgree(FromRow(rows[i]), shown)
    ensures outcome.NoExpectation? ==> outcome.verifierType == live
  {
    var expected := Lookup(rows, live);
    if expected.Failure? {
      return NoExpectation(live);
    }
    outcome := CheckDetails(expected.value, shown);
    ghost var i: nat :| FirstMatchAt(rows, live, i) && expected.value == FromRow(rows[i]);
    forall k: nat | FirstMatchAt(rows, live, k)
      ensures k == i
    {
      FirstMatchUnique(rows, live, i, k);
    }
  }
}

=== FILE: fixtures.dfy ===
/**
 * The step "the Holder receives a proof request [of {proof}] [with
 * {proof} at {interval}]": which fixture file it reads, how a non-revocation
 * interval is merged into the loaded document, and what is sent and kept.
 * The file system is a map from path to parsed document, and the interval
 * builder is a function parameter whose definition is not part of this model.
 */
module Fixtures {
  import opened Wrappers
  import opened Text
  import opened ProofDocument

  const DataDirectory: string := "features/data/"
  const JsonSuffix: string := ".json"

  /** Python truthiness of an optional string: present and not empty. */
  predicate Truthy(s: Option<string>) {
    s.Some? && |s.value| > 0
  }

  /** The fixture a proof name is read from: its lower-cased name under the data directory. */
  function FixturePath(proof: string): (path: string)
    ensures |path| == |DataDirectory| + |proof| + |JsonSuffix|
    ensures path[..|DataDirectory|] == DataDirectory
    ensures path[|path| - |JsonSuffix|..] == JsonSuffix
    ensures path[|DataDirectory|..|DataDirectory| + |proof|] == Lower(proof)
    ensures forall i :: |DataDirectory| <= i < |DataDirectory| + |proof| ==> !('A' <= path[i] <= 'Z')
  {
    DataDirectory + Lower(proof) + JsonSuffix
  }

  /** Two proof names read the same fixture exactly when they agree up to letter case. */
  lemma FixturePathCaseInsensitive(a: string, b: string)
    ensures FixturePath(a) == FixturePath(b) <==> Lower(a) == Lower(b)
  {
    if FixturePath(a) == FixturePath(b) {
      var n := |DataDirectory|;
      assert |a| == |b|;
      assert Lower(a) == FixturePath(a)[n..n + |a|];
      assert Lower(b) == FixturePath(b)[n..n + |b|];
    }
  }

  /**
   * `proof_json["non_revoked"] = create_non_revoke_interval(interval)["non_revoked"]`
   * when an interval is given; nothing else in the document changes.
   */
  function WithInterval(doc: ProofRequest, interval: Option<string>, nonRevoke: string -> Interval): (r: ProofRequest)
    ensures r.requestedAttributes == doc.requestedAttributes
    ensures r.requestedPredicates == doc.requestedPredicates
    ensures Truthy(interval) ==> r.nonRevoked == Some(nonRevoke(interval.value))
    ensures !Truthy(interval) ==> r == doc
  {
    if Truthy(interval) then doc.(nonRevoked := Some(nonRevoke(interval.value))) else doc
  }

  /** What the verifier is asked to send. */
  datatype Sent =
    | DefaultRequest                 // `send_proof_request()` with no document
    | RequestFor(doc: ProofRequest)  // `send_proof_request(request_for_proof=doc)`
    | NothingSent                    // the fixture was missing

  /**
   * The step's effect: the child steps it runs first, what it sends, the
   * `proof_json` kept for later steps, and what it prints.
   */
  datatype ReceiveOutcome = ReceiveOutcome(
    children: seq<string>,
    sent: Sent,
    proofJson: Option<ProofRequest>,
    printed: seq<string>)

  const ConnectionCheck: string := "Then there is a connection between \"verifier\" and Holder"

  /**
   * With no proof name the verifier sends its default request. Otherwise the
   * fixture is read, the interval merged in, the result kept and sent; a
   * missing fixture is printed and the step carries on with nothing sent and
   * the previous `proof_json` left in place.
   */
  function ReceiveProofRequest(
    proof: Option<string>, interval: Option<string>,
    files: map<string, ProofRequest>, nonRevoke: string -> Interval,
    previous: Option<ProofRequest>): (o: ReceiveOutcome)
    ensures o.children == [ConnectionCheck]
    ensures o.sent.RequestFor? <==> proof.Some? && FixturePath(proof.value) in files
    ensures o.sent.RequestFor? ==> o.proofJson == Some(o.sent.doc)
    ensures o.sent.RequestFor? ==>
              o.sent.doc == WithInterval(files[FixturePath(proof.value)], interval, nonRevoke)
    ensures !o.sent.RequestFor? ==> o.proofJson == previous
    ensures o.sent == DefaultRequest <==> proof.None?
    ensures |o.printed| > 0 <==> o.sent == NothingSent
  {
    match proof
    case None => ReceiveOutcome([ConnectionCheck], DefaultRequest, previous, [])
    case Some(p) =>
      var path := FixturePath(p);
      if path in files then
        var doc := WithInterval(files[path], interval, nonRevoke);
        ReceiveOutcome([ConnectionCheck], RequestFor(doc), Some(doc), [])
      else
        ReceiveOutcome([ConnectionCheck], NothingSent, previous, ["FileNotFoundError: " + path])
  }

  /** The proof name's letter case never matters. */
  lemma ReceiveIgnoresCase(
    p: string, interval: Option<string>, files: map<string, ProofRequest>,
    nonRevoke: string -> Interval, previous: Option<ProofRequest>)
    ensures ReceiveProofRequest(Some(p), interval, files, nonRevoke, previous)
         == ReceiveProofRequest(Some(Lower(p)), interval, files, nonRevoke, previous)
  {
    LowerIdempotent(p);
    FixturePathCaseInsensitive(p, Lower(p));
  }

  /**
   * The document sent, and kept for later verification, carries the
   * requested attributes and predicates of the fixture unchanged and the
   * built interval when one was given.
   */
  lemma SentDocumentKeepsRequests(
    p: string, interval: Option<string>, files: map<string, ProofRequest>,
    nonRevoke: string -> Interval, previous: Option<ProofRequest>)
    requires FixturePath(p) in files
    ensures var o := ReceiveProofRequest(Some(p), interval, files, nonRevoke, previous);
            && o.proofJson.Some?
            && o.proofJson.value.requestedAttributes == files[FixturePath(p)].requestedAttributes
            && o.proofJson.value.requestedPredicates == files[FixturePath(p)].requestedPredicates
            && (Truthy(interval) ==> o.proofJson.value.nonRevoked == Some(nonRevoke(interval.value)))
            && (!Truthy(interval) ==> o.proofJson.value == files[FixturePath(p)])
  {
  }
}

=== FILE: proof_document.dfy ===
/**
 * The documents the proof steps work on: a proof request loaded from a
 * fixture, and the collection of credentials the holder has accepted.
 * JSON objects are kept as ordered sequences of (key, value) pairs, since
 * the steps iterate them in document order.
 */
module ProofDocument {
  import opened Wrappers

  /** A non-revocation interval, as the interval builder produces it. */
  datatype Interval = Interval(from: int, to: int)

  /**
   * One entry of `requested_attributes`. `members` lists the member names
   * of its JSON object in document order (typically `names` and
   * `restrictions`); `names` is the value of its `names` member, which is
   * only read when `names` is one of `members`.
   */
  datatype AttributeGroup = AttributeGroup(members: seq<string>, names: seq<string>)

  /**
   * One entry of `requested_predicates`: the member names of its JSON
   * object, and the value of its `name` member.
   */
  datatype PredicateRequest = PredicateRequest(members: seq<string>, name: string)

  /** A proof request document; the two requested maps keep their document order. */
  datatype ProofRequest = ProofRequest(
    requestedAttributes: seq<(string, AttributeGroup)>,
    requestedPredicates: seq<(string, PredicateRequest)>,
    nonRevoked: Option<Interval>)

  /** A credential the holder accepted: its schema name and attribute names. */
  datatype CredentialFixture = CredentialFixture(schemaName: string, attributes: seq<string>)

  /** The holder's credentials, keyed by credential identifier, in collection order. */
  type CredentialCollection = seq<(string, CredentialFixture)>
}

=== FILE: reconciler.dfy ===
/**
 * The attribute reconciler of the step "the request informs them of the
 * attributes and credentials they came from": for each requested attribute
 * group and then each requested predicate it records which credential
 * supplies it, as a list of {credential_name, attributes} entries.
 *
 * `ReconcileAsWritten` is the step as it is written. Two things in it are
 * not what its comments describe:
 *  - the credential test compares each attribute name with itself, so it
 *    holds exactly when the credential has any attribute at all;
 *  - the working `names` dictionary is keyed by the member names of the
 *    group's JSON object (`names`, `restrictions`, ...) and is cleared only
 *    once, before the predicates, so a group records one entry per member
 *    key seen so far, some carrying earlier groups' name lists.
 * `ReconcileIntended` is the behaviour the comments describe: each group or
 * predicate is attributed once, to the first credential that holds one of
 * its names.
 */
module Reconciler {
  import opened Wrappers
  import opened ProofDocument
  import opened DisplayName

  /** What an entry records as its `attributes`: a group's name list, or a predicate's name. */
  datatype Requested = NameList(names: seq<string>) | Name(name: string)

  datatype Entry = Entry(credentialName: string, attributes: Requested)

  /** The `KeyError` raised for a request object that lacks the member it is read for. */
  datatype MissingMember = MissingMember(key: string)

  // ---------------------------------------------------------------------
  // The working `names` dictionary: an insertion-ordered Python dict.
  // ---------------------------------------------------------------------

  type NamesDict = seq<(string, Requested)>

  function Keys(d: NamesDict): (ks: seq<string>)
    ensures |ks| == |d|
    ensures forall i :: 0 <= i < |d| ==> ks[i] == d[i].0
  {
    seq(|d|, i requires 0 <= i < |d| => d[i].0)
  }

  /** `d[k] = v`: an existing key keeps its place and gets `v`, a new key goes last. */
  function Put(d: NamesDict, k: string, v: Requested): (r: NamesDict)
    ensures |r| == if k in Keys(d) then |d| else |d| + 1
    ensures forall i :: 0 <= i < |d| ==> r[i].0 == d[i].0 && (d[i].0 != k ==> r[i].1 == d[i].1)
    ensures k in Keys(r)
    ensures k !in Keys(d) ==> r[|d|] == (k, v)
    ensures forall i :: 0 <= i < |r| && r[i].0 == k ==> r[i].1 == v
  {
    if k in Keys(d) then
      var r := seq(|d|, i requires 0 <= i < |d| => if d[i].0 == k then (k, v) else d[i]);
      assert Keys(r) == Keys(d);
      r
    else
      var r := d + [(k, v)];
      assert Keys(r)[|d|] == k;
      r
  }

  /**
   * `d.update({key: v for key in keys})`: the existing keys stay where they
   * are, and at most one entry is appended per key being set.
   */
  function Update(d: NamesDict, keys: seq<string>, v: Requested): (r: NamesDict)
    ensures |d| <= |r| <= |d| + |keys|
    ensures forall i :: 0 <= i < |d| ==> r[i].0 == d[i].0
    decreases |keys|
  {
    if |keys| == 0 then d
    else
      var d' := Put(d, keys[0], v);
      Update(d', keys[1..], v)
  }

  /**
   * Updating appends only keys being set; every key being set now holds
   * `v`, and every other key keeps its value.
   */
  lemma {:induction false} UpdateFacts(d: NamesDict, keys: seq<string>, v: Requested)
    ensures var r := Update(d, keys, v);
            && (forall i :: |d| <= i < |r| ==> r[i].0 in keys)
            && (forall i :: 0 <= i < |r| ==> r[i].1 == (if r[i].0 in keys then v else d[i].1))
    decreases |keys|
  {
    if |keys| > 0 {
      var d' := Put(d, keys[0], v);
      UpdateFacts(d', keys[1..], v);
      var r := Update(d', keys[1..], v);
      assert forall x :: x in keys <==> x == keys[0] || x in keys[1..];
      forall i | 0 <= i < |r|
        ensures r[i].1 == (if r[i].0 in keys then v else d[i].1)
      {
        if r[i].0 !in keys {
          assert r[i].0 !in keys[1..] && r[i].0 != keys[0];
          assert i < |d'| && r[i].1 == d'[i].1;
          if keys[0] !in Keys(d) {
            assert i < |d|;
          }
        }
      }
    }
  }

  /**
   * Every key being set ends up in the dictionary; updating appends only
   * keys that were not there before, and each of them once, so a dictionary
   * gets one entry per distinct key.
   */
  lemma {:induction false} UpdateAppendsNewKeys(d: NamesDict, keys: seq<string>, v: Requested)
    ensures forall k :: k in keys ==> k in Keys(Update(d, keys, v))
    ensures forall i :: |d| <= i < |Update(d, keys, v)| ==> Update(d, keys, v)[i].0 !in Keys(d)
    ensures forall i, j :: |d| <= i < j < |Update(d, keys, v)| ==> Update(d, keys, v)[i].0 != Update(d, keys, v)[j].0
    decreases |keys|
  {
    if |keys| > 0 {
      var d' := Put(d, keys[0], v);
      UpdateAppendsNewKeys(d', keys[1..], v);
      var r := Update(d', keys[1..], v);
      assert keys[0] in Keys(r) by {
        var m :| 0 <= m < |d'| && Keys(d')[m] == keys[0];
        assert Keys(r)[m] == keys[0];
      }
      assert forall k :: k in keys ==> k == keys[0] || k in keys[1..];
      assert forall x :: x in Keys(d) ==> x in Keys(d') by {
        forall x | x in Keys(d) ensures x in Keys(d') {
          var m :| 0 <= m < |d| && Keys(d)[m] == x;
          assert Keys(d')[m] == x;
        }
      }
      forall i | |d| <= i < |r|
        ensures r[i].0 !in Keys(d)
      {
        if i < |d'| {
          assert |d'| == |d| + 1 && keys[0] !in Keys(d);
          assert i == |d| && r[i].0 == d'[i].0 == keys[0];
        } else {
          assert r[i].0 !in Keys(d');
        }
      }
      forall i, j | |d| <= i < j < |r|
        ensures r[i].0 != r[j].0
      {
        if i < |d'| {
          assert r[i].0 == d'[i].0 && Keys(d')[i] == r[i].0;
          assert r[j].0 !in Keys(d');
        }
      }
    }
  }

  // ---------------------------------------------------------------------
  // The credential scan, as written.
  // ---------------------------------------------------------------------

  /**
   * The test `any(name == name for name in attributes)`: every attribute
   * name equals itself, so the test only asks whether there is one.
   */
  function AnyNameMatches(attributes: seq<string>): (b: bool)
    ensures b <==> |attributes| > 0
  {
    var found := exists i :: 0 <= i < |attributes| && attributes[i] == attributes[i];
    assert |attributes| > 0 ==> 0 <= 0 < |attributes| && attributes[0] == attributes[0];
    found
  }

  /** One entry per value of the working dictionary, all naming one credential. */
  function RecordAll(schemaName: string, d: NamesDict): seq<Entry> {
    seq(|d|, i requires 0 <= i < |d| => Entry(Display(schemaName), d[i].1))
  }

  /**
   * The credential loop of one request: walk the credentials in order; the
   * first one that passes the test records an entry for every value of the
   * working dictionary, and the walk stops once something was recorded.
   */
  function ScanCredentials(creds: CredentialCollection, d: NamesDict): (r: seq<Entry>)
    ensures r == [] || (|r| == |d| && forall i :: 0 <= i < |r| ==> r[i].attributes == d[i].1)
    decreases |creds|
  {
    if |creds| == 0 then []
    else
      var c := creds[0].1;
      var added := if AnyNameMatches(c.attributes) then RecordAll(c.schemaName, d) else [];
      if |added| > 0 then added else ScanCredentials(creds[1..], d)
  }

  /** The first credential, in collection order, whose attribute list is not empty. */
  function FirstWithAttributes(creds: CredentialCollection): (k: Option<nat>)
    ensures k.Some? ==> k.value < |creds| && |creds[k.value].1.attributes| > 0
    ensures k.Some? ==> forall j :: 0 <= j < k.value ==> |creds[j].1.attributes| == 0
    ensures k.None? ==> forall j :: 0 <= j < |creds| ==> |creds[j].1.attributes| == 0
    decreases |creds|
  {
    if |creds| == 0 then None
    else if |creds[0].1.attributes| > 0 then Some(0)
    else
      match FirstWithAttributes(creds[1..])
      case None => None
      case Some(k) => Some(k + 1)
  }

  /**
   * Within one request, every entry comes from the first credential with a
   * non-empty attribute list, one per dictionary value; when there is no
   * such credential nothing is recorded.
   */
  lemma {:induction false} ScanCredentialsPicksFirstWithAttributes(creds: CredentialCollection, d: NamesDict)
    ensures FirstWithAttributes(creds).None? ==> ScanCredentials(creds, d) == []
    ensures FirstWithAttributes(creds).Some? ==>
              ScanCredentials(creds, d) == RecordAll(creds[FirstWithAttributes(creds).value].1.schemaName, d)
    decreases |creds|
  {
    if |creds| > 0 {
      ScanCredentialsPicksFirstWithAttributes(creds[1..], d);
      if |creds[0].1.attributes| == 0 || |d| == 0 {
        assert ScanCredentials(creds, d) == ScanCredentials(creds[1..], d);
      }
    }
  }

  // ---------------------------------------------------------------------
  // The request loops, as written.
  // ---------------------------------------------------------------------

  /**
   * One iteration of a request loop: the object's member names, the member
   * the loop reads for each of them (`names` for a group, `name` for a
   * predicate), and the value read.
   */
  datatype Request = Request(members: seq<string>, key: string, value: Requested)

  /**
   * The comprehension `{name: req[key] for name in req}` reads `req[key]`
   * once per member, so it raises exactly when the object has members but
   * not `key`; an empty object reads nothing.
   */
  predicate Lacks(req: Request) {
    |req.members| > 0 && req.key !in req.members
  }

  /** The outcome of running one loop and then another: the first error wins. */
  function Chain(a: Result<seq<Entry>, MissingMember>, b: Result<seq<Entry>, MissingMember>): Result<seq<Entry>, MissingMember> {
    if a.Failure? then a else if b.Failure? then b else Success(a.value + b.value)
  }

  /** The first request, in document order, whose comprehension raises. */
  function FirstLacking(reqs: seq<Request>): (k: Option<nat>)
    ensures k.Some? ==> k.value < |reqs| && Lacks(reqs[k.value])
    ensures k.Some? ==> forall j :: 0 <= j < k.value ==> !Lacks(reqs[j])
    ensures k.None? ==> forall j :: 0 <= j < |reqs| ==> !Lacks(reqs[j])
    decreases |reqs|
  {
    if |reqs| == 0 then None
    else if Lacks(reqs[0]) then Some(0)
    else
      match FirstLacking(reqs[1..])
      case None => None
      case Some(k) => Some(k + 1)
  }

  /**
   * A request loop: for each request in document order, build the
   * comprehension (raising on a missing member), fold it into the working
   * dictionary, then run the credential loop. It raises for the first
   * request that lacks its member, and only if there is one.
   */
  function ScanRequests(reqs: seq<Request>, creds: CredentialCollection, d: NamesDict): (r: Result<seq<Entry>, MissingMember>)
    ensures r.Failure? <==> FirstLacking(reqs).Some?
    ensures r.Failure? ==> r.error == MissingMember(reqs[FirstLacking(reqs).value].key)
    decreases |reqs|
  {
    if |reqs| == 0 then Success([])
    else if Lacks(reqs[0]) then Failure(MissingMember(reqs[0].key))
    else
      var d' := Update(d, reqs[0].members, reqs[0].value);
      var later := ScanRequests(reqs[1..], creds, d');
      assert later.Failure? ==> reqs[1..][FirstLacking(reqs[1..]).value] == reqs[FirstLacking(reqs).value];
      Chain(Success(ScanCredentials(creds, d')), later)
  }

  /** The working dictionary after folding in `reqs`. */
  function Fold(reqs: seq<Request>, d: NamesDict): NamesDict
    decreases |reqs|
  {
    if |reqs| == 0 then d else Fold(reqs[1..], Update(d, reqs[0].members, reqs[0].value))
  }

  /**
   * Reading `attr["names"]` for each member of a non-empty group object
   * that has no `names` member raises; an empty object reads nothing.
   */
  predicate GroupLacksNames(g: AttributeGroup) {
    |g.members| > 0 && "names" !in g.members
  }

  predicate PredicateLacksName(p: PredicateRequest) {
    |p.members| > 0 && "name" !in p.members
  }

  function AttributeRequests(doc: ProofRequest): (reqs: seq<Request>)
    ensures |reqs| == |doc.requestedAttributes|
  {
    var groups := doc.requestedAttributes;
    seq(|groups|, i requires 0 <= i < |groups| => Request(groups[i].1.members, "names", NameList(groups[i].1.names)))
  }

  function PredicateRequests(doc: ProofRequest): (reqs: seq<Request>)
    ensures |reqs| == |doc.requestedPredicates|
  {
    var preds := doc.requestedPredicates;
    seq(|preds|, i requires 0 <= i < |preds| => Request(preds[i].1.members, "name", Name(preds[i].1.name)))
  }

  /**
   * The `KeyError` the step raises, if any, read off the document: the
   * attribute loop runs first, so a group without `names` wins over a
   * predicate without `name`.
   */
  function MemberError(doc: ProofRequest): Option<MissingMember> {
    if exists i :: 0 <= i < |doc.requestedAttributes| && GroupLacksNames(doc.requestedAttributes[i].1) then
      Some(MissingMember("names"))
    else if exists i :: 0 <= i < |doc.requestedPredicates| && PredicateLacksName(doc.requestedPredicates[i].1) then
      Some(MissingMember("name"))
    else None
  }

  /**
   * The reconciler step as written: the attribute-group loop, then, with a
   * fresh dictionary, the predicate loop. It raises exactly the `KeyError`
   * that the document predicts.
   */
  function ReconcileAsWritten(doc: ProofRequest, creds: CredentialCollection): (r: Result<seq<Entry>, MissingMember>)
    ensures r.Failure? <==> MemberError(doc).Some?
    ensures r.Failure? ==> r.error == MemberError(doc).value
  {
    AttributeLoopError(doc, creds);
    PredicateLoopError(doc, creds);
    Chain(ScanRequests(AttributeRequests(doc), creds, []), ScanRequests(PredicateRequests(doc), creds, []))
  }

  /** The attribute-group loop raises `KeyError('names')` exactly when a non-empty group lacks `names`. */
  lemma AttributeLoopError(doc: ProofRequest, creds: CredentialCollection)
    ensures var a := ScanRequests(AttributeRequests(doc), creds, []);
            && (a.Failure? <==> exists i :: 0 <= i < |doc.requestedAttributes| && GroupLacksNames(doc.requestedAttributes[i].1))
            && (a.Failure? ==> a.error == MissingMember("names"))
  {
    var attrs := AttributeRequests(doc);
    if exists i :: 0 <= i < |doc.requestedAttributes| && GroupLacksNames(doc.requestedAttributes[i].1) {
      var i :| 0 <= i < |doc.requestedAttributes| && GroupLacksNames(doc.requestedAttributes[i].1);
      assert Lacks(attrs[i]);
    }
  }

  /** The predicate loop raises `KeyError('name')` exactly when a non-empty predicate lacks `name`. */
  lemma PredicateLoopError(doc: ProofRequest, creds: CredentialCollection)
    ensures var p := ScanRequests(PredicateRequests(doc), creds, []);
            && (p.Failure? <==> exists i :: 0 <= i < |doc.requestedPredicates| && PredicateLacksName(doc.requestedPredicates[i].1))
            && (p.Failure? ==> p.error == MissingMember("name"))
  {
    var preds := PredicateRequests(doc);
    if exists i :: 0 <= i < |doc.requestedPredicates| && PredicateLacksName(doc.requestedPredicates[i].1) {
      var i :| 0 <= i < |doc.requestedPredicates| && PredicateLacksName(doc.requestedPredicates[i].1);
      assert Lacks(preds[i]);
    }
  }

  // ---------------------------------------------------------------------
  // What the as-written reconciler does.
  // ---------------------------------------------------------------------

  predicate AllNamed(es: seq<Entry>, credentialName: string) {
    forall i :: 0 <= i < |es| ==> es[i].credentialName == credentialName
  }

  lemma {:induction false} ScanRequestsFromFirstWithAttributes(reqs: seq<Request>, creds: CredentialCollection, d: NamesDict)
    ensures var r := ScanRequests(reqs, creds, d);
            && (r.Success? && FirstWithAttributes(creds).None? ==> r.value == [])
            && (r.Success? && FirstWithAttributes(creds).Some? ==>
                  AllNamed(r.value, Display(creds[FirstWithAttributes(creds).value].1.schemaName)))
    decreases |reqs|
  {
    if |reqs| > 0 && !Lacks(reqs[0]) {
      var d' := Update(d, reqs[0].members, reqs[0].value);
      ScanCredentialsPicksFirstWithAttributes(creds, d');
      ScanRequestsFromFirstWithAttributes(reqs[1..], creds, d');
    }
  }

  /** With no missing member, both loops run to the end and their entries are concatenated. */
  lemma AsWrittenSucceeds(doc: ProofRequest, creds: CredentialCollection)
    requires MemberError(doc).None?
    ensures ScanRequests(AttributeRequests(doc), creds, []).Success?
    ensures ScanRequests(PredicateRequests(doc), creds, []).Success?
    ensures ReconcileAsWritten(doc, creds).value
         == ScanRequests(AttributeRequests(doc), creds, []).value + ScanRequests(PredicateRequests(doc), creds, []).value
  {
  }

  /**
   * Every entry names the first credential with a non-empty attribute
   * list, whatever names the document requests; with no such credential
   * the result is empty.
   */
  lemma AsWrittenAllFromFirstCredential(doc: ProofRequest, creds: CredentialCollection)
    requires MemberError(doc).None?
    ensures FirstWithAttributes(creds).None? ==> ReconcileAsWritten(doc, creds) == Success([])
    ensures FirstWithAttributes(creds).Some? ==>
              AllNamed(ReconcileAsWritten(doc, creds).value,
                       Display(creds[FirstWithAttributes(creds).value].1.schemaName))
  {
    AsWrittenSucceeds(doc, creds);
    ScanRequestsFromFirstWithAttributes(AttributeRequests(doc), creds, []);
    ScanRequestsFromFirstWithAttributes(PredicateRequests(doc), creds, []);
  }

  /** `v` is a value of the dictionary or the value of one of the requests. */
  predicate RecordedFrom(v: Requested, reqs: seq<Request>, d: NamesDict) {
    (exists i :: 0 <= i < |d| && d[i].1 == v) || (exists j :: 0 <= j < |reqs| && reqs[j].value == v)
  }

  /** A value recorded after folding in the first request was a value of the dictionary before, or a request's. */
  lemma RecordedFromAfterUpdate(v: Requested, reqs: seq<Request>, d: NamesDict)
    requires |reqs| > 0
    requires RecordedFrom(v, reqs[1..], Update(d, reqs[0].members, reqs[0].value))
    ensures RecordedFrom(v, reqs, d)
  {
    var d' := Update(d, reqs[0].members, reqs[0].value);
    if j :| 0 <= j < |reqs[1..]| && reqs[1..][j].value == v {
      assert reqs[j + 1].value == v;
    } else {
      var i :| 0 <= i < |d'| && d'[i].1 == v;
      UpdateFacts(d, reqs[0].members, reqs[0].value);
      if d'[i].0 in reqs[0].members {
        assert reqs[0].value == v;
      } else {
        assert d[i].1 == v;
      }
    }
  }

  /** Every entry of `es` records a value of the dictionary or of one of the requests. */
  predicate AllRecordedFrom(es: seq<Entry>, reqs: seq<Request>, d: NamesDict) {
    forall k :: 0 <= k < |es| ==> RecordedFrom(es[k].attributes, reqs, d)
  }

  lemma {:induction false} ScanRequestsRecordsRequestedValues(reqs: seq<Request>, creds: CredentialCollection, d: NamesDict)
    ensures ScanRequests(reqs, creds, d).Success? ==> AllRecordedFrom(ScanRequests(reqs, creds, d).value, reqs, d)
    decreases |reqs|
  {
    if |reqs| > 0 && !Lacks(reqs[0]) {
      var d' := Update(d, reqs[0].members, reqs[0].value);
      var r, later := ScanRequests(reqs, creds, d), ScanRequests(reqs[1..], creds, d');
      ScanRequestsRecordsRequestedValues(reqs[1..], creds, d');
      if r.Success? {
        var here := ScanCredentials(creds, d');
        assert later.Success? && r.value == here + later.value;
        FirstScanRecordsValues(reqs, creds, d);
        LaterScanRecordsValues(reqs, later.value, d);
        AllRecordedFromConcat(here, later.value, reqs, d);
      }
    }
  }

  lemma AllRecordedFromConcat(a: seq<Entry>, b: seq<Entry>, reqs: seq<Request>, d: NamesDict)
    requires AllRecordedFrom(a, reqs, d) && AllRecordedFrom(b, reqs, d)
    ensures AllRecordedFrom(a + b, reqs, d)
  {
    forall k | 0 <= k < |a + b|
      ensures RecordedFrom((a + b)[k].attributes, reqs, d)
    {
      if k >= |a| {
        assert (a + b)[k] == b[k - |a|];
      }
    }
  }

  lemma FirstScanRecordsValues(reqs: seq<Request>, creds: CredentialCollection, d: NamesDict)
    requires |reqs| > 0
    ensures AllRecordedFrom(ScanCredentials(creds, Update(d, reqs[0].members, reqs[0].value)), reqs, d)
  {
    var d' := Update(d, reqs[0].members, reqs[0].value);
    var here := ScanCredentials(creds, d');
    forall k | 0 <= k < |here|
      ensures RecordedFrom(here[k].attributes, reqs, d)
    {
      assert here[k].attributes == d'[k].1;
      assert RecordedFrom(here[k].attributes, reqs[1..], d');
      RecordedFromAfterUpdate(here[k].attributes, reqs, d);
    }
  }

  lemma LaterScanRecordsValues(reqs: seq<Request>, later: seq<Entry>, d: NamesDict)
    requires |reqs| > 0
    requires AllRecordedFrom(later, reqs[1..], Update(d, reqs[0].members, reqs[0].value))
    ensures AllRecordedFrom(later, reqs, d)
  {
    forall k | 0 <= k < |later|
      ensures RecordedFrom(later[k].attributes, reqs, d)
    {
      RecordedFromAfterUpdate(later[k].attributes, reqs, d);
    }
  }

  /**
   * Every recorded `attributes` is a requested group's whole name list or a
   * requested predicate's name, and no predicate entry comes before an
   * attribute-group entry.
   */
  lemma AsWrittenRecordsRequestedValues(doc: ProofRequest, creds: CredentialCollection)
    requires MemberError(doc).None?
    ensures forall k :: 0 <= k < |ReconcileAsWritten(doc, creds).value| ==>
              var v := ReconcileAsWritten(doc, creds).value[k].attributes;
              (v.NameList? && exists i :: 0 <= i < |doc.requestedAttributes| && doc.requestedAttributes[i].1.names == v.names)
              || (v.Name? && exists i :: 0 <= i < |doc.requestedPredicates| && doc.requestedPredicates[i].1.name == v.name)
    ensures forall k, l ::
              (0 <= k < l < |ReconcileAsWritten(doc, creds).value|
               && ReconcileAsWritten(doc, creds).value[k].attributes.Name?)
              ==> ReconcileAsWritten(doc, creds).value[l].attributes.Name?
  {
    AsWrittenSucceeds(doc, creds);
    AttributeLoopRecordsNameLists(doc, creds);
    PredicateLoopRecordsNames(doc, creds);
    var a, p := ScanRequests(AttributeRequests(doc), creds, []).value, ScanRequests(PredicateRequests(doc), creds, []).value;
    assert ReconcileAsWritten(doc, creds).value == a + p;
  }

  lemma AttributeLoopRecordsNameLists(doc: ProofRequest, creds: CredentialCollection)
    ensures var r := ScanRequests(AttributeRequests(doc), creds, []);
            r.Success? ==>
              forall k :: 0 <= k < |r.value| ==>
                r.value[k].attributes.NameList?
                && exists i :: 0 <= i < |doc.requestedAttributes| && doc.requestedAttributes[i].1.names == r.value[k].attributes.names
  {
    var attrs := AttributeRequests(doc);
    ScanRequestsRecordsRequestedValues(attrs, creds, []);
    var r := ScanRequests(attrs, creds, []);
    if r.Success? {
      forall k | 0 <= k < |r.value|
        ensures r.value[k].attributes.NameList?
        ensures exists i :: 0 <= i < |doc.requestedAttributes| && doc.requestedAttributes[i].1.names == r.value[k].attributes.names
      {
        var j :| 0 <= j < |attrs| && attrs[j].value == r.value[k].attributes;
      }
    }
  }

  lemma PredicateLoopRecordsNames(doc: ProofRequest, creds: CredentialCollection)
    ensures var r := ScanRequests(PredicateRequests(doc), creds, []);
            r.Success? ==>
              forall k :: 0 <= k < |r.value| ==>
                r.value[k].attributes.Name?
                && exists i :: 0 <= i < |doc.requestedPredicates| && doc.requestedPredicates[i].1.name == r.value[k].attributes.name
  {
    var preds := PredicateRequests(doc);
    ScanRequestsRecordsRequestedValues(preds, creds, []);
    var r := ScanRequests(preds, creds, []);
    if r.Success? {
      forall k | 0 <= k < |r.value|
        ensures r.value[k].attributes.Name?
        ensures exists i :: 0 <= i < |doc.requestedPredicates| && doc.requestedPredicates[i].1.name == r.value[k].attributes.name
      {
        var j :| 0 <= j < |preds| && preds[j].value == r.value[k].attributes;
      }
    }
  }

  /**
   * Scanning more requests continues the scan: `a`'s outcome, then `b`'s,
   * scanned with the dictionary `a` left behind; an error in `a` wins.
   */
  lemma {:induction false} ScanRequestsAppend(a: seq<Request>, b: seq<Request>, creds: CredentialCollection, d: NamesDict)
    ensures ScanRequests(a + b, creds, d) == Chain(ScanRequests(a, creds, d), ScanRequests(b, creds, Fold(a, d)))
    decreases |a|
  {
    if |a| == 0 {
      assert a + b == b;
      ChainEmpty(ScanRequests(b, creds, d));
    } else {
      assert (a + b)[0] == a[0] && (a + b)[1..] == a[1..] + b;
      if !Lacks(a[0]) {
        var d' := Update(d, a[0].members, a[0].value);
        ScanRequestsAppend(a[1..], b, creds, d');
        var x, y, z := ScanCredentials(creds, d'), ScanRequests(a[1..], creds, d'), ScanRequests(b, creds, Fold(a, d));
        assert Fold(a, d) == Fold(a[1..], d');
        assert ScanRequests(a + b, creds, d) == Chain(Success(x), ScanRequests(a[1..] + b, creds, d'));
        assert ScanRequests(a, creds, d) == Chain(Success(x), y);
        ChainAssociative(Success(x), y, z);
      }
    }
  }

  lemma ChainEmpty(r: Result<seq<Entry>, MissingMember>)
    ensures Chain(Success([]), r) == r
  {
    if r.Success? {
      assert [] + r.value == r.value;
    }
  }

  lemma ChainAssociative(x: Result<seq<Entry>, MissingMember>, y: Result<seq<Entry>, MissingMember>, z: Result<seq<Entry>, MissingMember>)
    ensures Chain(x, Chain(y, z)) == Chain(Chain(x, y), z)
  {
    if x.Success? && y.Success? && z.Success? {
      assert x.value + (y.value + z.value) == (x.value + y.value) + z.value;
    }
  }

  /**
   * Document order is kept: the entries of the first `n` attribute groups
   * and the first `m` predicates are where they would be if the document
   * stopped there.
   */
  lemma AsWrittenDocumentOrder(doc: ProofRequest, creds: CredentialCollection, n: nat, m: nat)
    requires MemberError(doc).None?
    requires n <= |doc.requestedAttributes| && m <= |doc.requestedPredicates|
    ensures var short := doc.(requestedAttributes := doc.requestedAttributes[..n],
                                requestedPredicates := doc.requestedPredicates[..m]);
            var whole := ReconcileAsWritten(doc, creds).value;
            && MemberError(short).None?
            && ScanRequests(AttributeRequests(short), creds, []).Success?
            && ScanRequests(AttributeRequests(short), creds, []).value <= whole
            && ReconcileAsWritten(doc.(requestedPredicates := doc.requestedPredicates[..m]), creds).Success?
            && ReconcileAsWritten(doc.(requestedPredicates := doc.requestedPredicates[..m]), creds).value
               <= whole
  {
    AsWrittenSucceeds(doc, creds);
    ShortAttributeRequests(doc, n, m);
    ScanRequestsPrefix(AttributeRequests(doc), creds, [], n);
    HeadReconcile(doc, creds, m);
    ScanRequestsPrefix(PredicateRequests(doc), creds, [], m);
  }

  lemma ShortAttributeRequests(doc: ProofRequest, n: nat, m: nat)
    requires n <= |doc.requestedAttributes| && m <= |doc.requestedPredicates|
    ensures var short := doc.(requestedAttributes := doc.requestedAttributes[..n],
                                requestedPredicates := doc.requestedPredicates[..m]);
            && AttributeRequests(short) == AttributeRequests(doc)[..n]
            && (MemberError(doc).None? ==> MemberError(short).None?)
  {
  }

  /** Cutting the predicates short leaves the attribute loop as it is. */
  lemma HeadReconcile(doc: ProofRequest, creds: CredentialCollection, m: nat)
    requires m <= |doc.requestedPredicates|
    ensures var head := doc.(requestedPredicates := doc.requestedPredicates[..m]);
            ReconcileAsWritten(head, creds)
              == Chain(ScanRequests(AttributeRequests(doc), creds, []), ScanRequests(PredicateRequests(doc)[..m], creds, []))
  {
    var head := doc.(requestedPredicates := doc.requestedPredicates[..m]);
    assert AttributeRequests(head) == AttributeRequests(doc);
    assert PredicateRequests(head) == PredicateRequests(doc)[..m];
  }

  /** A prefix of the requests scans without error to a prefix of the entries. */
  lemma ScanRequestsPrefix(reqs: seq<Request>, creds: CredentialCollection, d: NamesDict, n: nat)
    requires n <= |reqs| && ScanRequests(reqs, creds, d).Success?
    ensures ScanRequests(reqs[..n], creds, d).Success?
    ensures ScanRequests(reqs[..n], creds, d).value <= ScanRequests(reqs, creds, d).value
  {
    assert reqs == reqs[..n] + reqs[n..];
    ScanRequestsAppend(reqs[..n], reqs[n..], creds, d);
  }

  /** The entry blocks laid end to end. */
  function Concat(blocks: seq<seq<Entry>>): seq<Entry>
    decreases |blocks|
  {
    if |blocks| == 0 then [] else blocks[0] + Concat(blocks[1..])
  }

  /**
   * What request `i` records when nothing raises: one credential scan with
   * the dictionary left after folding in requests `0..i`.
   */
  function RequestBlocks(reqs: seq<Request>, creds: CredentialCollection, d: NamesDict): (blocks: seq<seq<Entry>>)
    ensures |blocks| == |reqs|
  {
    seq(|reqs|, i requires 0 <= i < |reqs| => ScanCredentials(creds, Fold(reqs[..i + 1], d)))
  }

  lemma FoldPrefixShift(reqs: seq<Request>, d: NamesDict, i: nat)
    requires i + 1 < |reqs|
    ensures Fold(reqs[..i + 2], d) == Fold(reqs[1..][..i + 1], Update(d, reqs[0].members, reqs[0].value))
  {
    assert reqs[..i + 2][0] == reqs[0];
    assert reqs[..i + 2][1..] == reqs[1..][..i + 1];
  }

  lemma RequestBlocksShift(reqs: seq<Request>, creds: CredentialCollection, d: NamesDict)
    requires |reqs| > 0
    ensures RequestBlocks(reqs, creds, d)[0] == ScanCredentials(creds, Update(d, reqs[0].members, reqs[0].value))
    ensures RequestBlocks(reqs, creds, d)[1..]
         == RequestBlocks(reqs[1..], creds, Update(d, reqs[0].members, reqs[0].value))
  {
    var d' := Update(d, reqs[0].members, reqs[0].value);
    var all := RequestBlocks(reqs, creds, d);
    var rest := RequestBlocks(reqs[1..], creds, d');
    assert reqs[..1][1..] == [] && reqs[..1][0] == reqs[0];
    assert Fold(reqs[..1], d) == d';
    forall i | 0 <= i < |reqs| - 1
      ensures all[1..][i] == rest[i]
    {
      FoldPrefixShift(reqs, d, i);
      assert all[i + 1] == ScanCredentials(creds, Fold(reqs[..i + 2], d));
      assert rest[i] == ScanCredentials(creds, Fold(reqs[1..][..i + 1], d'));
    }
    assert all[1..] == rest;
  }

  /**
   * A request loop that does not raise records, request after request, one
   * credential scan with the dictionary as it stands after that request's
   * `names.update`: the dictionary keeps every member key seen so far.
   */
  lemma {:induction false} ScanRequestsRecordsBlocks(reqs: seq<Request>, creds: CredentialCollection, d: NamesDict)
    ensures ScanRequests(reqs, creds, d).Success? ==>
              ScanRequests(reqs, creds, d).value == Concat(RequestBlocks(reqs, creds, d))
    decreases |reqs|
  {
    if |reqs| > 0 && !Lacks(reqs[0]) {
      var d' := Update(d, reqs[0].members, reqs[0].value);
      ScanRequestsRecordsBlocks(reqs[1..], creds, d');
      RequestBlocksShift(reqs, creds, d);
    }
  }

  /** No key appears twice in the dictionary. */
  predicate DistinctKeys(d: NamesDict) {
    forall i, j :: 0 <= i < j < |d| ==> d[i].0 != d[j].0
  }

  /** Some request among `reqs` names `k` as a member. */
  predicate Seen(k: string, reqs: seq<Request>) {
    exists i :: 0 <= i < |reqs| && k in reqs[i].members
  }

  /** After an update the keys are the old ones plus the ones being set, each once. */
  lemma UpdateKeys(d: NamesDict, keys: seq<string>, v: Requested)
    ensures forall k :: k in Keys(Update(d, keys, v)) <==> k in Keys(d) || k in keys
    ensures DistinctKeys(d) ==> DistinctKeys(Update(d, keys, v))
  {
    var r := Update(d, keys, v);
    UpdateFacts(d, keys, v);
    UpdateAppendsNewKeys(d, keys, v);
    forall k | k in Keys(d) ensures k in Keys(r) {
      var m :| 0 <= m < |d| && Keys(d)[m] == k;
      assert Keys(r)[m] == k;
    }
    forall k | k in Keys(r) ensures k in Keys(d) || k in keys {
      var m :| 0 <= m < |r| && Keys(r)[m] == k;
      if m < |d| {
        assert Keys(d)[m] == k;
      }
    }
    if DistinctKeys(d) {
      forall i, j | 0 <= i < j < |r| ensures r[i].0 != r[j].0 {
        if j < |d| {
          assert d[i].0 != d[j].0;
        } else if i < |d| {
          assert Keys(d)[i] == r[i].0;
        }
      }
    }
  }

  /**
   * Folding requests into a dictionary leaves exactly the keys it had plus
   * every member key some request names, each once.
   */
  lemma {:induction false} FoldKeys(reqs: seq<Request>, d: NamesDict)
    ensures forall k :: k in Keys(Fold(reqs, d)) <==> k in Keys(d) || Seen(k, reqs)
    ensures DistinctKeys(d) ==> DistinctKeys(Fold(reqs, d))
    decreases |reqs|
  {
    if |reqs| > 0 {
      var d' := Update(d, reqs[0].members, reqs[0].value);
      UpdateKeys(d, reqs[0].members, reqs[0].value);
      FoldKeys(reqs[1..], d');
      forall k ensures Seen(k, reqs) <==> k in reqs[0].members || Seen(k, reqs[1..]) {
        if Seen(k, reqs[1..]) {
          var i :| 0 <= i < |reqs[1..]| && k in reqs[1..][i].members;
          assert k in reqs[i + 1].members;
        }
        if Seen(k, reqs) && k !in reqs[0].members {
          var i :| 0 <= i < |reqs| && k in reqs[i].members;
          assert i > 0 && k in reqs[1..][i - 1].members;
        }
      }
    }
  }

  /**
   * When some credential holds an attribute and no request raises, request
   * `i` records one entry per distinct member key among requests `0..i`,
   * each naming that first credential: a later group repeats the names of
   * every earlier one.
   */
  lemma OneEntryPerKeySeen(reqs: seq<Request>, creds: CredentialCollection, i: nat)
    requires i < |reqs|
    requires FirstWithAttributes(creds).Some?
    ensures var d := Fold(reqs[..i + 1], []);
            && RequestBlocks(reqs, creds, [])[i] == RecordAll(creds[FirstWithAttributes(creds).value].1.schemaName, d)
            && DistinctKeys(d)
            && (forall k :: k in Keys(d) <==> Seen(k, reqs[..i + 1]))
  {
    var d := Fold(reqs[..i + 1], []);
    ScanCredentialsPicksFirstWithAttributes(creds, d);
    FoldKeys(reqs[..i + 1], []);
  }

  // ---------------------------------------------------------------------
  // The reconciler as its comments describe it.
  // ---------------------------------------------------------------------

  /** The attribute names a request asks for. */
  function Wanted(v: Requested): seq<string> {
    match v
    case NameList(names) => names
    case Name(name) => [name]
  }

  predicate Holds(c: CredentialFixture, wanted: seq<string>) {
    exists n :: n in wanted && n in c.attributes
  }

  /** The first credential, in collection order, holding one of the wanted names. */
  function FirstHolding(creds: CredentialCollection, wanted: seq<string>): (k: Option<nat>)
    ensures k.Some? ==> k.value < |creds| && Holds(creds[k.value].1, wanted)
    ensures k.Some? ==> forall j :: 0 <= j < k.value ==> !Holds(creds[j].1, wanted)
    ensures k.None? ==> forall j :: 0 <= j < |creds| ==> !Holds(creds[j].1, wanted)
    decreases |creds|
  {
    if |creds| == 0 then None
    else if exists n :: n in wanted && n in creds[0].1.attributes then Some(0)
    else
      match FirstHolding(creds[1..], wanted)
      case None => None
      case Some(k) => Some(k + 1)
  }

  /** Some credential holds one of the names the request asks for. */
  predicate HasHolder(v: Requested, creds: CredentialCollection) {
    FirstHolding(creds, Wanted(v)).Some?
  }

  /** The entry a request that some credential can answer gets: its own value, named by its first holder. */
  function HolderEntry(v: Requested, creds: CredentialCollection): Entry
    requires HasHolder(v, creds)
  {
    Entry(Display(creds[FirstHolding(creds, Wanted(v)).value].1.schemaName), v)
  }

  /** The entry one request records: at most one, from the first credential holding one of its names. */
  function IntendedEntry(v: Requested, creds: CredentialCollection): seq<Entry> {
    if HasHolder(v, creds) then [HolderEntry(v, creds)] else []
  }

  function IntendedEntries(vs: seq<Requested>, creds: CredentialCollection): (es: seq<Entry>)
    ensures |es| <= |vs|
    decreases |vs|
  {
    if |vs| == 0 then [] else IntendedEntry(vs[0], creds) + IntendedEntries(vs[1..], creds)
  }

  /** What each group, then each predicate, asks for, in document order. */
  function RequestedValues(doc: ProofRequest): (vs: seq<Requested>)
    ensures |vs| == |doc.requestedAttributes| + |doc.requestedPredicates|
    ensures forall i :: 0 <= i < |doc.requestedAttributes| ==>
              vs[i] == NameList(doc.requestedAttributes[i].1.names)
    ensures forall i :: 0 <= i < |doc.requestedPredicates| ==>
              vs[|doc.requestedAttributes| + i] == Name(doc.requestedPredicates[i].1.name)
  {
    var attrs, preds := AttributeRequests(doc), PredicateRequests(doc);
    seq(|attrs|, i requires 0 <= i < |attrs| => attrs[i].value)
      + seq(|preds|, i requires 0 <= i < |preds| => preds[i].value)
  }

  /**
   * The reconciler with a real membership test and one entry per request;
   * it raises the same `KeyError` as the step as written.
   */
  function ReconcileIntended(doc: ProofRequest, creds: CredentialCollection): (r: Result<seq<Entry>, MissingMember>)
    ensures r.Failure? <==> MemberError(doc).Some?
    ensures r.Failure? ==> r.error == MemberError(doc).value
    ensures r.Failure? <==> ReconcileAsWritten(doc, creds).Failure?
    ensures r.Failure? ==> r.error == ReconcileAsWritten(doc, creds).error
    ensures r.Success? ==> |r.value| <= |doc.requestedAttributes| + |doc.requestedPredicates|
  {
    match MemberError(doc)
    case Some(e) => Failure(e)
    case None => Success(IntendedEntries(RequestedValues(doc), creds))
  }

  /**
   * Each request contributes an entry exactly when some credential holds one
   * of its names, and that entry names the first such credential.
   */
  lemma IntendedEntryNamesHolder(v: Requested, creds: CredentialCollection)
    ensures |IntendedEntry(v, creds)| == 1 <==> exists j :: 0 <= j < |creds| && Holds(creds[j].1, Wanted(v))
    ensures |IntendedEntry(v, creds)| <= 1
    ensures |IntendedEntry(v, creds)| == 1 ==>
              exists j :: 0 <= j < |creds| && Holds(creds[j].1, Wanted(v))
                && (forall i :: 0 <= i < j ==> !Holds(creds[i].1, Wanted(v)))
                && IntendedEntry(v, creds)[0] == Entry(Display(creds[j].1.schemaName), v)
  {
  }

  /** The entries come in request order: entry blocks of a prefix of the requests form a prefix. */
  lemma {:induction false} IntendedEntriesAppend(a: seq<Requested>, b: seq<Requested>, creds: CredentialCollection)
    ensures IntendedEntries(a + b, creds) == IntendedEntries(a, creds) + IntendedEntries(b, creds)
    decreases |a|
  {
    if |a| == 0 {
      assert a + b == b;
    } else {
      assert (a + b)[0] == a[0] && (a + b)[1..] == a[1..] + b;
      IntendedEntriesAppend(a[1..], b, creds);
    }
  }

  /** Every position moved one request later. */
  function Shift(idx: seq<nat>): (r: seq<nat>)
    ensures |r| == |idx|
    ensures forall j :: 0 <= j < |idx| ==> r[j] == idx[j] + 1
  {
    seq(|idx|, j requires 0 <= j < |idx| => idx[j] + 1)
  }

  /** The positions, in increasing order, of the requests some credential can answer. */
  function Contributing(vs: seq<Requested>, creds: CredentialCollection): (idx: seq<nat>)
    ensures forall j :: 0 <= j < |idx| ==> idx[j] < |vs| && HasHolder(vs[idx[j]], creds)
    decreases |vs|
  {
    if |vs| == 0 then []
    else
      var tail := Contributing(vs[1..], creds);
      var shifted := Shift(tail);
      assert forall j :: 0 <= j < |shifted| ==> shifted[j] < |vs| && HasHolder(vs[shifted[j]], creds) by {
        forall j | 0 <= j < |shifted|
          ensures shifted[j] < |vs| && HasHolder(vs[shifted[j]], creds)
        {
          assert vs[shifted[j]] == vs[1..][tail[j]];
        }
      }
      if HasHolder(vs[0], creds) then [0] + shifted else shifted
  }

  /** The positions are strictly increasing, so the entries follow request order. */
  lemma {:induction false} ContributingIncreasing(vs: seq<Requested>, creds: CredentialCollection)
    ensures forall j, k :: 0 <= j < k < |Contributing(vs, creds)| ==> Contributing(vs, creds)[j] < Contributing(vs, creds)[k]
    decreases |vs|
  {
    if |vs| > 0 {
      ContributingIncreasing(vs[1..], creds);
    }
  }

  /** No request a credential can answer is left out. */
  lemma {:induction false} ContributingComplete(vs: seq<Requested>, creds: CredentialCollection)
    ensures forall i :: 0 <= i < |vs| && HasHolder(vs[i], creds) ==> i in Contributing(vs, creds)
    decreases |vs|
  {
    if |vs| > 0 {
      ContributingComplete(vs[1..], creds);
      var tail := Contributing(vs[1..], creds);
      forall i | 1 <= i < |vs| && HasHolder(vs[i], creds)
        ensures i in Shift(tail)
      {
        assert vs[1..][i - 1] == vs[i];
        var j :| 0 <= j < |tail| && tail[j] == i - 1;
        assert Shift(tail)[j] == i;
      }
    }
  }

  /**
   * `es` holds, in order, the entry of each request at the positions `idx`:
   * that request's own value, named by its first holder.
   */
  predicate EntriesMatch(es: seq<Entry>, idx: seq<nat>, vs: seq<Requested>, creds: CredentialCollection) {
    && |es| == |idx|
    && forall j :: 0 <= j < |idx| ==>
         idx[j] < |vs| && HasHolder(vs[idx[j]], creds) && es[j] == HolderEntry(vs[idx[j]], creds)
  }

  /** Entries matched to positions of `vs[1..]` match the positions one later in `vs`. */
  lemma EntriesMatchShift(vs: seq<Requested>, creds: CredentialCollection, tail: seq<nat>, rest: seq<Entry>)
    requires |vs| > 0 && EntriesMatch(rest, tail, vs[1..], creds)
    ensures EntriesMatch(rest, Shift(tail), vs, creds)
  {
    forall j | 0 <= j < |tail|
      ensures vs[Shift(tail)[j]] == vs[1..][tail[j]]
    {
    }
  }

  /** The entry of a first request that has a holder goes in front. */
  lemma EntriesMatchPrepend(vs: seq<Requested>, creds: CredentialCollection, idx: seq<nat>, es: seq<Entry>)
    requires |vs| > 0 && HasHolder(vs[0], creds) && EntriesMatch(es, idx, vs, creds)
    ensures EntriesMatch([HolderEntry(vs[0], creds)] + es, [0] + idx, vs, creds)
  {
    var es', idx' := [HolderEntry(vs[0], creds)] + es, [0] + idx;
    forall j | 0 <= j < |idx'|
      ensures idx'[j] < |vs| && HasHolder(vs[idx'[j]], creds) && es'[j] == HolderEntry(vs[idx'[j]], creds)
    {
      if j > 0 {
        assert es'[j] == es[j - 1] && idx'[j] == idx[j - 1];
      }
    }
  }

  /**
   * The corrected entries are one per request that some credential can
   * answer, in request order, each recording that request's own value and
   * naming the first credential holding one of its names.
   */
  lemma {:induction false} IntendedEntriesFollowRequests(vs: seq<Requested>, creds: CredentialCollection)
    ensures EntriesMatch(IntendedEntries(vs, creds), Contributing(vs, creds), vs, creds)
    decreases |vs|
  {
    if |vs| > 0 {
      IntendedEntriesFollowRequests(vs[1..], creds);
      var tail := Contributing(vs[1..], creds);
      var rest := IntendedEntries(vs[1..], creds);
      EntriesMatchShift(vs, creds, tail, rest);
      if HasHolder(vs[0], creds) {
        EntriesMatchPrepend(vs, creds, Shift(tail), rest);
        assert IntendedEntries(vs, creds) == [HolderEntry(vs[0], creds)] + rest;
        assert Contributing(vs, creds) == [0] + Shift(tail);
      } else {
        assert IntendedEntries(vs, creds) == rest;
        assert Contributing(vs, creds) == Shift(tail);
      }
    }
  }

  /**
   * At the level of a whole document, the corrected reconciler records one
   * entry per group or predicate that some credential can answer, in
   * document order, each carrying that group's own name list or that
   * predicate's own name: no earlier group's list is ever repeated.
   */
  lemma ReconcileIntendedPerRequest(doc: ProofRequest, creds: CredentialCollection)
    ensures ReconcileIntended(doc, creds).Success? ==>
              EntriesMatch(ReconcileIntended(doc, creds).value,
                           Contributing(RequestedValues(doc), creds), RequestedValues(doc), creds)
  {
    IntendedEntriesFollowRequests(RequestedValues(doc), creds);
  }

  // ---------------------------------------------------------------------
  // Worked examples.
  // ---------------------------------------------------------------------

  /** A group that is an object with only a `names` member. */
  lemma {:induction false} SingleNamesGroup(names: seq<string>, creds: CredentialCollection)
    ensures var doc := ProofRequest([("g1", AttributeGroup(["names"], names))], [], None);
            && MemberError(doc).None?
            && AttributeRequests(doc) == [Request(["names"], "names", NameList(names))]
            && Update([], ["names"], NameList(names)) == [("names", NameList(names))]
            && RequestedValues(doc) == [NameList(names)]
            && ReconcileAsWritten(doc, creds) == Success(ScanCredentials(creds, [("names", NameList(names))]))
            && ReconcileIntended(doc, creds) == Success(IntendedEntry(NameList(names), creds))
  {
    var doc := ProofRequest([("g1", AttributeGroup(["names"], names))], [], None);
    assert !GroupLacksNames(doc.requestedAttributes[0].1);
    assert Keys([]) == [];
    assert Put([], "names", NameList(names)) == [("names", NameList(names))];
    var reqs := AttributeRequests(doc);
    assert reqs == [Request(["names"], "names", NameList(names))];
    assert !Lacks(reqs[0]);
    assert ["names"][1..] == [];
    assert Update([], ["names"], NameList(names)) == [("names", NameList(names))];
    assert PredicateRequests(doc) == [];
    assert ScanRequests(PredicateRequests(doc), creds, []) == Success([]);
    assert reqs[1..] == [];
    var scanned := ScanCredentials(creds, [("names", NameList(names))]);
    assert scanned + [] == scanned;
    assert ScanRequests(reqs, creds, []) == Chain(Success(scanned), Success([]));
    assert ScanRequests(reqs, creds, []) == Success(scanned);
    assert RequestedValues(doc) == [NameList(names)];
    assert [NameList(names)][1..] == [];
    assert ReconcileAsWritten(doc, creds) == Chain(Success(scanned), Success([]));
    assert ReconcileIntended(doc, creds) == Success(IntendedEntries(RequestedValues(doc), creds));
    assert IntendedEntry(NameList(names), creds) + [] == IntendedEntry(NameList(names), creds);
    assert IntendedEntries([NameList(names)], creds) == IntendedEntry(NameList(names), creds) + [];
  }

  /** One credential with attributes records one entry per dictionary value. */
  lemma OneCredentialRecordsAll(cred: CredentialFixture, d: NamesDict)
    requires |cred.attributes| > 0
    ensures ScanCredentials([("c1", cred)], d) == RecordAll(cred.schemaName, d)
    ensures |d| == 1 ==> ScanCredentials([("c1", cred)], d) == [Entry(Display(cred.schemaName), d[0].1)]
    ensures |d| == 2 ==> ScanCredentials([("c1", cred)], d)
                         == [Entry(Display(cred.schemaName), d[0].1), Entry(Display(cred.schemaName), d[1].1)]
  {
    ScanCredentialsPicksFirstWithAttributes([("c1", cred)], d);
  }

  /** A one-group request for `given_name` against a `permanent_resident` credential. */
  lemma PermanentResidentExample()
    ensures var doc := ProofRequest([("g1", AttributeGroup(["names"], ["given_name"]))], [], None);
            var creds := [("c1", CredentialFixture("permanent_resident", ["given_name", "family_name"]))];
            && ReconcileAsWritten(doc, creds)
                 == Success([Entry("Permanent Resident", NameList(["given_name"]))])
            && ReconcileIntended(doc, creds)
                 == Success([Entry("Permanent Resident", NameList(["given_name"]))])
  {
    var names := ["given_name"];
    var creds := [("c1", CredentialFixture("permanent_resident", ["given_name", "family_name"]))];
    SingleNamesGroup(names, creds);
    DisplayPermanentResident();
    OneCredentialRecordsAll(creds[0].1, [("names", NameList(names))]);
    assert "given_name" in names && "given_name" in creds[0].1.attributes;
    assert FirstHolding(creds, names) == Some(0);
    assert Wanted(NameList(names)) == names;
    assert HolderEntry(NameList(names), creds) == Entry("Permanent Resident", NameList(names));
    assert IntendedEntry(NameList(names), creds) == [Entry("Permanent Resident", NameList(names))];
  }

  /**
   * As written, a credential that holds none of the requested names is
   * still reported, with the requested list; the intended reconciler
   * reports nothing.
   */
  lemma AsWrittenReportsCredentialWithoutRequestedName(wanted: string, cred: CredentialFixture)
    requires |cred.attributes| > 0 && wanted !in cred.attributes
    ensures var doc := ProofRequest([("g1", AttributeGroup(["names"], [wanted]))], [], None);
            var creds := [("c1", cred)];
            && ReconcileAsWritten(doc, creds) == Success([Entry(Display(cred.schemaName), NameList([wanted]))])
            && ReconcileIntended(doc, creds) == Success([])
  {
    var creds := [("c1", cred)];
    SingleNamesGroup([wanted], creds);
    OneCredentialRecordsAll(cred, [("names", NameList([wanted]))]);
    assert !Holds(creds[0].1, [wanted]);
    assert Wanted(NameList([wanted])) == [wanted];
    assert FirstHolding(creds, [wanted]) == None;
  }

  /**
   * The same two groups, corrected: one entry per group, the first with the
   * first group's list and the second with the second group's own list.
   */
  lemma IntendedNoStaleNames(first: seq<string>, second: seq<string>, cred: CredentialFixture)
    requires exists n :: n in first && n in cred.attributes
    requires exists n :: n in second && n in cred.attributes
    ensures var doc := ProofRequest(
                         [("g1", AttributeGroup(["names", "restrictions"], first)),
                          ("g2", AttributeGroup(["names"], second))], [], None);
            var shown := Display(cred.schemaName);
            ReconcileIntended(doc, [("c1", cred)])
              == Success([Entry(shown, NameList(first)), Entry(shown, NameList(second))])
  {
    var doc := ProofRequest(
                 [("g1", AttributeGroup(["names", "restrictions"], first)),
                  ("g2", AttributeGroup(["names"], second))], [], None);
    var creds := [("c1", cred)];
    var a, b := NameList(first), NameList(second);
    assert !GroupLacksNames(doc.requestedAttributes[0].1) && !GroupLacksNames(doc.requestedAttributes[1].1);
    assert MemberError(doc).None?;
    assert RequestedValues(doc) == [a, b];
    assert Wanted(a) == first && Wanted(b) == second;
    assert FirstHolding(creds, first) == Some(0) && FirstHolding(creds, second) == Some(0);
    assert IntendedEntry(a, creds) == [Entry(Display(cred.schemaName), a)];
    assert IntendedEntry(b, creds) == [Entry(Display(cred.schemaName), b)];
    assert [a, b][1..] == [b] && [b][1..] == [];
    assert IntendedEntries([b], creds) == IntendedEntry(b, creds) + [];
    assert IntendedEntries([a, b], creds) == IntendedEntry(a, creds) + IntendedEntries([b], creds);
    assert IntendedEntries([a, b], creds) == [Entry(Display(cred.schemaName), a), Entry(Display(cred.schemaName), b)];
    assert ReconcileIntended(doc, creds) == Success(IntendedEntries([a, b], creds));
  }

  /**
   * As written, a group with members `names` and `restrictions` followed by
   * a group with only `names` yield four entries, not two: one per member
   * key of the working dictionary, the second group repeating the first
   * group's list under `restrictions`.
   */
  lemma AsWrittenRepeatsStaleNames(first: seq<string>, second: seq<string>, cred: CredentialFixture)
    requires |cred.attributes| > 0
    ensures var doc := ProofRequest(
                         [("g1", AttributeGroup(["names", "restrictions"], first)),
                          ("g2", AttributeGroup(["names"], second))], [], None);
            var shown := Display(cred.schemaName);
            && ReconcileAsWritten(doc, [("c1", cred)])
                 == Success([Entry(shown, NameList(first)), Entry(shown, NameList(first)),
                             Entry(shown, NameList(second)), Entry(shown, NameList(first))])
            && |ReconcileAsWritten(doc, [("c1", cred)]).value| > |doc.requestedAttributes| + |doc.requestedPredicates|
  {
    var g1 := AttributeGroup(["names", "restrictions"], first);
    var g2 := AttributeGroup(["names"], second);
    var doc := ProofRequest([("g1", g1), ("g2", g2)], [], None);
    var creds := [("c1", cred)];
    var a, b := NameList(first), NameList(second);
    var d1, d2 := [("names", a), ("restrictions", a)], [("names", b), ("restrictions", a)];
    StaleDictionaries(a, b);
    var reqs := AttributeRequests(doc);
    assert reqs == [Request(g1.members, "names", a), Request(g2.members, "names", b)];
    OneCredentialRecordsAll(cred, d1);
    OneCredentialRecordsAll(cred, d2);
    var shown := Display(cred.schemaName);
    TwoRequests(reqs, creds, [], d1, d2);
    var es := [Entry(shown, a), Entry(shown, a), Entry(shown, b), Entry(shown, a)];
    assert ScanCredentials(creds, d1) + ScanCredentials(creds, d2) == es;
    assert es + [] == es;
    assert PredicateRequests(doc) == [];
    assert ScanRequests(PredicateRequests(doc), creds, []) == Success([]);
    assert ReconcileAsWritten(doc, creds)
        == Chain(ScanRequests(reqs, creds, []), ScanRequests(PredicateRequests(doc), creds, []));
  }

  /** The working dictionary after the groups `{names, restrictions}` and then `{names}`. */
  lemma StaleDictionaries(a: Requested, b: Requested)
    ensures Update([], ["names", "restrictions"], a) == [("names", a), ("restrictions", a)]
    ensures Update([("names", a), ("restrictions", a)], ["names"], b) == [("names", b), ("restrictions", a)]
  {
    var d0 := Put([], "names", a);
    assert Keys([]) == [];
    assert d0 == [("names", a)];
    assert Keys(d0) == ["names"];
    var d1 := Put(d0, "restrictions", a);
    assert d1 == [("names", a), ("restrictions", a)];
    assert Update([], ["names", "restrictions"], a) == Update(d0, ["restrictions"], a);
    assert ["names", "restrictions"][1..] == ["restrictions"];
    assert ["restrictions"][1..] == [];
    assert Keys(d1) == ["names", "restrictions"];
    assert ["names"][1..] == [];
  }

  /** Scanning two requests that both have their member. */
  lemma TwoRequests(reqs: seq<Request>, creds: CredentialCollection, d0: NamesDict, d1: NamesDict, d2: NamesDict)
    requires |reqs| == 2 && !Lacks(reqs[0]) && !Lacks(reqs[1])
    requires Update(d0, reqs[0].members, reqs[0].value) == d1
    requires Update(d1, reqs[1].members, reqs[1].value) == d2
    ensures ScanRequests(reqs, creds, d0) == Success(ScanCredentials(creds, d1) + ScanCredentials(creds, d2))
  {
    assert reqs[1..][1..] == [];
    assert ScanRequests(reqs[1..][1..], creds, d2) == Success([]);
    assert ScanCredentials(creds, d2) + [] == ScanCredentials(creds, d2);
    assert ScanRequests(reqs[1..], creds, d1) == Success(ScanCredentials(creds, d2));
  }
}

=== FILE: step_plans.dfy ===
/**
 * The composite steps that set up a proof request: the ordered child step
 * phrases each one hands to the step runner, with captured parameters
 * interpolated verbatim. Gherkin comment lines in an expansion are not
 * steps and do not appear.
 */
module StepPlans {
  import opened Wrappers
  import opened Text
  import opened Fixtures

  // Gherkin keywords; each child phrase is a keyword followed by the step text.
  const When: string := "When "
  const And: string := "And "
  const Then: string := "Then "

  const ScanQrCode: string := When + "the Holder scans the QR code sent by the \"verifier\""
  const TakenToConnecting: string := And + "the Holder is taken to the Connecting Screen/modal"
  const ConnectingCompletes: string := And + "the Connecting completes successfully"
  const ReceivesProofRequest: string := And + "the Holder receives a proof request"
  const BroughtToProofRequest: string := Then + "holder is brought to the proof request"

  const ReceiveOfPrefix: string := When + "the Holder receives a proof request of "
  const NonRevocationPrefix: string := When + "the Holder receives a proof of non-revocation with "
  const ProofRequestForPrefix: string := When + "the user has a proof request for "
  const IncludingNonRevocation: string := " including proof of non-revocation at "

  function ReceiveOf(proof: string): string {
    ReceiveOfPrefix + proof
  }

  function ReceiveNonRevocation(proof: string, interval: string): string {
    NonRevocationPrefix + proof + " at " + interval
  }

  /**
   * The receive step: with non-revocation when an interval is given. The
   * captured parameters reach it verbatim: removing the fixed text gives
   * them back.
   */
  function ReceiveStep(proof: string, interval: Option<string>): (step: string)
    ensures !Truthy(interval) ==>
              && |step| == |ReceiveOfPrefix| + |proof|
              && step[..|ReceiveOfPrefix|] == ReceiveOfPrefix
              && step[|ReceiveOfPrefix|..] == proof
    ensures Truthy(interval) ==>
              && |step| == |NonRevocationPrefix| + |proof| + |" at "| + |interval.value|
              && step[..|NonRevocationPrefix|] == NonRevocationPrefix
              && step[|NonRevocationPrefix|..|NonRevocationPrefix| + |proof|] == proof
              && step[|NonRevocationPrefix| + |proof|..|step| - |interval.value|] == " at "
              && step[|step| - |interval.value|..] == interval.value
  {
    if Truthy(interval) then ReceiveNonRevocation(proof, interval.value) else ReceiveOf(proof)
  }

  lemma ReceiveStepIsNotConnecting(proof: string, interval: Option<string>)
    ensures ReceiveStep(proof, interval) != TakenToConnecting
    ensures ScanQrCode != TakenToConnecting && BroughtToProofRequest != TakenToConnecting
  {
    assert TakenToConnecting[0] == 'A';
    assert BroughtToProofRequest[0] == 'T';
    assert ScanQrCode[0] == 'W';
    if Truthy(interval) {
      assert ReceiveStep(proof, interval)[0] == NonRevocationPrefix[0] == 'W';
    } else {
      assert ReceiveStep(proof, interval)[0] == ReceiveOfPrefix[0] == 'W';
    }
  }

  predicate IsConnectionless(scenarioName: string) {
    IsSubstring("connectionless", scenarioName)
  }

  /**
   * "the user has a proof request for {proof}" and its variants: scan the
   * verifier's QR code (and go through connecting unless the scenario is a
   * connectionless one), receive the request, land on the proof request.
   */
  function PlanProofRequestFor(scenarioName: string, proof: string, interval: Option<string>): (plan: seq<string>)
    ensures |plan| == if IsConnectionless(scenarioName) then 3 else 5
    ensures plan[0] == ScanQrCode
    ensures plan[|plan| - 2] == ReceiveStep(proof, interval)
    ensures plan[|plan| - 1] == BroughtToProofRequest
    ensures IsConnectionless(scenarioName) <==> TakenToConnecting !in plan
    ensures !IsConnectionless(scenarioName) ==> plan[..3] == [ScanQrCode, TakenToConnecting, ConnectingCompletes]
  {
    var prelude :=
      if IsConnectionless(scenarioName) then [ScanQrCode]
      else [ScanQrCode, TakenToConnecting, ConnectingCompletes];
    var plan := prelude + [ReceiveStep(proof, interval)] + [BroughtToProofRequest];
    ReceiveStepIsNotConnecting(proof, interval);
    plan
  }

  /** A connectionless scenario runs the same plan without the two connecting steps. */
  lemma ConnectionlessSkipsConnecting(withName: string, withoutName: string, proof: string, interval: Option<string>)
    requires IsConnectionless(withName) && !IsConnectionless(withoutName)
    ensures PlanProofRequestFor(withName, proof, interval)
         == [ScanQrCode] + PlanProofRequestFor(withoutName, proof, interval)[3..]
  {
  }

  /** The cells a table row has, by column heading. */
  type TableRow = map<string, string>

  /** Reading a column the table does not have. */
  datatype TableError = MissingColumn(column: string)

  /** A step table counts as given when it has at least one row. */
  predicate HasTable(table: Option<seq<TableRow>>) {
    table.Some? && |table.value| > 0
  }

  /**
   * "the user has a proof request", as written: with a table, delegate to
   * "the user has a proof request for {proof}" with the first row's proof
   * (its interval cell is read and then not used); without one, connect to
   * the verifier and receive its default request.
   */
  function PlanProofRequest(table: Option<seq<TableRow>>): (r: Result<seq<string>, TableError>)
    ensures r.Failure? <==> HasTable(table) && "proof" !in table.value[0]
    ensures r.Failure? ==> r.error == MissingColumn("proof")
    ensures r.Success? && HasTable(table) ==> r.value == [ProofRequestForPrefix + table.value[0]["proof"]]
    ensures r.Success? && !HasTable(table) ==>
              && |r.value| == 5
              && r.value[..3] == [ScanQrCode, TakenToConnecting, ConnectingCompletes]
              && r.value[3] == ReceivesProofRequest && r.value[4] == BroughtToProofRequest
  {
    if HasTable(table) then
      var row := table.value[0];
      if "proof" !in row then Failure(MissingColumn("proof"))
      else Success([ProofRequestForPrefix + row["proof"]])
    else
      Success([ScanQrCode, TakenToConnecting, ConnectingCompletes, ReceivesProofRequest, BroughtToProofRequest])
  }

  /**
   * Without a table the plan connects exactly as the proof-name variant does
   * in a scenario that is not connectionless, then receives the verifier's
   * default request.
   */
  lemma NoTablePlanSharesConnectingPrelude(scenarioName: string, proof: string, interval: Option<string>)
    requires !IsConnectionless(scenarioName)
    ensures PlanProofRequest(None).value[..3] == PlanProofRequestFor(scenarioName, proof, interval)[..3]
    ensures PlanProofRequest(None).value[4] == PlanProofRequestFor(scenarioName, proof, interval)[4]
  {
  }

  /** As written, the first row's interval cell never changes the plan. */
  lemma PlanProofRequestDropsInterval(rows: seq<TableRow>, interval: string)
    requires |rows| > 0
    ensures PlanProofRequest(Some(rows[0 := rows[0]["interval" := interval]]))
         == PlanProofRequest(Some(rows))
  {
    var rows' := rows[0 := rows[0]["interval" := interval]];
    assert "proof" in rows'[0] <==> "proof" in rows[0];
  }

  /**
   * "the user has a proof request" as its comment describes it: the first
   * row's interval, when the table has one, is passed on to the
   * non-revocation form of the child step.
   */
  function PlanProofRequestIntended(table: Option<seq<TableRow>>): (r: Result<seq<string>, TableError>)
    ensures r.Failure? <==> HasTable(table) && "proof" !in table.value[0]
  {
    if HasTable(table) then
      var row := table.value[0];
      if "proof" !in row then Failure(MissingColumn("proof"))
      else if "interval" in row && |row["interval"]| > 0 then
        Success([ProofRequestForPrefix + row["proof"] + IncludingNonRevocation + row["interval"]])
      else Success([ProofRequestForPrefix + row["proof"]])
    else
      Success([ScanQrCode, TakenToConnecting, ConnectingCompletes, ReceivesProofRequest, BroughtToProofRequest])
  }

  /**
   * With the correction, the child step carries the first row's proof and,
   * when present, its interval verbatim; a table without an interval is
   * planned exactly as before.
   */
  lemma IntendedPlanCarriesInterval(rows: seq<TableRow>)
    requires |rows| > 0 && "proof" in rows[0]
    ensures var r := PlanProofRequestIntended(Some(rows));
            && r.Success? && |r.value| == 1
            && r.value[0][..|ProofRequestForPrefix| + |rows[0]["proof"]|] == ProofRequestForPrefix + rows[0]["proof"]
            && ("interval" in rows[0] && |rows[0]["interval"]| > 0 ==>
                  var mid := |ProofRequestForPrefix| + |rows[0]["proof"]|;
                  && |r.value[0]| == mid + |IncludingNonRevocation| + |rows[0]["interval"]|
                  && r.value[0][mid..mid + |IncludingNonRevocation|] == IncludingNonRevocation
                  && r.value[0][mid + |IncludingNonRevocation|..] == rows[0]["interval"]
                  && r.value != PlanProofRequest(Some(rows)).value)
            && (!("interval" in rows[0] && |rows[0]["interval"]| > 0) ==>
                  r == PlanProofRequest(Some(rows)))
  {
    var proof := rows[0]["proof"];
    if "interval" in rows[0] && |rows[0]["interval"]| > 0 {
      var interval := rows[0]["interval"];
      var step := ProofRequestForPrefix + proof + IncludingNonRevocation + interval;
      assert |step| > |ProofRequestForPrefix + proof|;
    }
  }
}

=== FILE: text.dfy ===
/**
 * The few Python string operations the step definitions rely on, restricted
 * to ASCII: case mapping, `str.lower`, `str.replace` of one character,
 * `str.title`, substring membership (`a in b`), and `str.split` /
 * `str.join` on a one-character separator.
 */
module Text {

  /** The ASCII letters: the only characters Python calls "cased" here. */
  predicate IsLetter(c: char) {
    ('a' <= c <= 'z') || ('A' <= c <= 'Z')
  }

  function ToUpper(c: char): (u: char)
    ensures IsLetter(u) <==> IsLetter(c)
    ensures !IsLetter(c) ==> u == c
    ensures !('a' <= u <= 'z')
  {
    if 'a' <= c <= 'z' then (c as int - 32) as char else c
  }

  function ToLower(c: char): (l: char)
    ensures IsLetter(l) <==> IsLetter(c)
    ensures !IsLetter(c) ==> l == c
    ensures !('A' <= l <= 'Z')
  {
    if 'A' <= c <= 'Z' then (c as int + 32) as char else c
  }

  /** Python `s.lower()` on ASCII. */
  function Lower(s: string): (r: string)
    ensures |r| == |s|
    ensures forall i :: 0 <= i < |s| ==> r[i] == ToLower(s[i])
    ensures forall i :: 0 <= i < |r| ==> !('A' <= r[i] <= 'Z')
    ensures forall i :: 0 <= i < |s| && !IsLetter(s[i]) ==> r[i] == s[i]
  {
    seq(|s|, i requires 0 <= i < |s| => ToLower(s[i]))
  }

  lemma LowerIdempotent(s: string)
    ensures Lower(Lower(s)) == Lower(s)
  {
  }

  /** Python `s.replace(a, b)` for one-character `a` and `b`. */
  function ReplaceChar(s: string, a: char, b: char): (r: string)
    ensures |r| == |s|
    ensures a != b ==> a !in r
    ensures forall i :: 0 <= i < |s| ==> r[i] == (if s[i] == a then b else s[i])
  {
    seq(|s|, i requires 0 <= i < |s| => if s[i] == a then b else s[i])
  }

  /**
   * Python `s.title()` on ASCII, as CPython computes it: walking left to
   * right, a character is upper-cased when the character before it is not
   * cased and lower-cased when it is; `prevCased` says whether the
   * character before `s` was cased.
   */
  function TitleFrom(s: string, prevCased: bool): (r: string)
    ensures |r| == |s|
    decreases |s|
  {
    if |s| == 0 then []
    else
      var c := if prevCased then ToLower(s[0]) else ToUpper(s[0]);
      [c] + TitleFrom(s[1..], IsLetter(s[0]))
  }

  /** Every position of `Title(s)` is decided by the character before it alone. */
  function Title(s: string): (r: string)
    ensures |r| == |s|
    ensures forall i :: 0 <= i < |s| ==> r[i] == TitleAt(s, i)
  {
    assert forall i :: 0 <= i < |s| ==> TitleFrom(s, false)[i] == TitleAt(s, i) by {
      forall i | 0 <= i < |s|
        ensures TitleFrom(s, false)[i] == TitleAt(s, i)
      {
        TitleFromMatchesReference(s, false, i);
      }
    }
    TitleFrom(s, false)
  }

  /** The reference description of `str.title` at one position. */
  function TitleAt(s: string, i: nat): char
    requires i < |s|
  {
    if i == 0 || !IsLetter(s[i - 1]) then ToUpper(s[i]) else ToLower(s[i])
  }

  lemma {:induction false} TitleFromMatchesReference(s: string, prevCased: bool, i: nat)
    requires i < |s|
    ensures TitleFrom(s, prevCased)[i]
         == if i == 0 then (if prevCased then ToLower(s[0]) else ToUpper(s[0]))
            else TitleAt(s, i)
    decreases i
  {
    if i > 0 {
      TitleFromMatchesReference(s[1..], IsLetter(s[0]), i - 1);
      if i > 1 {
        assert TitleAt(s[1..], i - 1) == TitleAt(s, i);
      }
    }
  }

  lemma {:induction false} TitleFromIdempotent(s: string, prevCased: bool)
    ensures TitleFrom(TitleFrom(s, prevCased), prevCased) == TitleFrom(s, prevCased)
    decreases |s|
  {
    if |s| > 0 {
      var t := TitleFrom(s, prevCased);
      assert t[1..] == TitleFrom(s[1..], IsLetter(s[0]));
      assert IsLetter(t[0]) == IsLetter(s[0]);
      TitleFromIdempotent(s[1..], IsLetter(s[0]));
    }
  }

  lemma TitleIdempotent(s: string)
    ensures Title(Title(s)) == Title(s)
  {
    TitleFromIdempotent(s, false);
  }

  /** Title-casing a concatenation continues from the last character of the first part. */
  lemma {:induction false} TitleFromAppend(x: string, y: string, prevCased: bool)
    ensures TitleFrom(x + y, prevCased)
         == TitleFrom(x, prevCased) + TitleFrom(y, if |x| == 0 then prevCased else IsLetter(x[|x| - 1]))
    decreases |x|
  {
    if |x| == 0 {
      assert x + y == y;
    } else {
      assert (x + y)[0] == x[0] && (x + y)[1..] == x[1..] + y;
      TitleFromAppend(x[1..], y, IsLetter(x[0]));
    }
  }

  /** A lower-case word is only capitalised at its first letter. */
  lemma {:induction false} TitleFromLowerWord(w: string)
    requires |w| > 0
    requires forall i :: 0 <= i < |w| ==> 'a' <= w[i] <= 'z'
    ensures TitleFrom(w, true) == w
    ensures TitleFrom(w, false) == [ToUpper(w[0])] + w[1..]
    decreases |w|
  {
    if |w| > 1 {
      TitleFromLowerWord(w[1..]);
    }
  }

  /** Two lower-case words separated by a space are each capitalised. */
  lemma TitleTwoWords(w1: string, w2: string)
    requires |w1| > 0 && |w2| > 0
    requires forall i :: 0 <= i < |w1| ==> 'a' <= w1[i] <= 'z'
    requires forall i :: 0 <= i < |w2| ==> 'a' <= w2[i] <= 'z'
    ensures Title(w1 + " " + w2) == [ToUpper(w1[0])] + w1[1..] + " " + [ToUpper(w2[0])] + w2[1..]
  {
    TitleFromLowerWord(w1);
    TitleFromLowerWord(w2);
    TitleFromAppend(w1, " " + w2, false);
    TitleFromAppend(" ", w2, true);
    assert w1 + (" " + w2) == w1 + " " + w2;
  }

  /** Case mapping never creates or removes a non-letter such as `_`. */
  lemma {:induction false} TitleFromKeepsNonLetters(s: string, prevCased: bool, c: char)
    requires !IsLetter(c)
    ensures c in TitleFrom(s, prevCased) <==> c in s
    decreases |s|
  {
    if |s| > 0 {
      TitleFromKeepsNonLetters(s[1..], IsLetter(s[0]), c);
      assert s == [s[0]] + s[1..];
    }
  }

  // ---------------------------------------------------------------------
  // Substring membership: Python `needle in hay` on strings.
  // ---------------------------------------------------------------------

  /** `needle` occurs in `hay` starting at index `i`. */
  predicate OccursAt(needle: string, hay: string, i: nat) {
    i + |needle| <= |hay| && hay[i..i + |needle|] == needle
  }

  predicate IsSubstring(needle: string, hay: string) {
    exists i: nat :: i <= |hay| && OccursAt(needle, hay, i)
  }

  /** Executable substring search; the empty string occurs in every string. */
  method Contains(hay: string, needle: string) returns (found: bool)
    ensures found <==> IsSubstring(needle, hay)
  {
    if |needle| > |hay| {
      return false;
    }
    var i := 0;
    while i <= |hay| - |needle|
      invariant 0 <= i <= |hay| - |needle| + 1
      invariant forall j: nat :: j < i ==> !OccursAt(needle, hay, j)
    {
      if hay[i..i + |needle|] == needle {
        assert OccursAt(needle, hay, i);
        return true;
      }
      i := i + 1;
    }
    return false;
  }

  // ---------------------------------------------------------------------
  // Python `s.split(sep)` and `sep.join(parts)` for a one-character `sep`.
  // ---------------------------------------------------------------------

  function CountChar(s: string, c: char): nat {
    if |s| == 0 then 0 else (if s[0] == c then 1 else 0) + CountChar(s[1..], c)
  }

  /**
   * Python `s.split(sep)`: the maximal pieces between separators, so the
   * empty string splits into one empty piece and adjacent separators give
   * empty pieces.
   */
  function Split(s: string, sep: char): (parts: seq<string>)
    ensures |parts| == CountChar(s, sep) + 1
    ensures forall k :: 0 <= k < |parts| ==> sep !in parts[k]
    decreases |s|
  {
    if |s| == 0 then [""]
    else
      var rest := Split(s[1..], sep);
      if s[0] == sep then [""] + rest
      else
        var parts := [[s[0]] + rest[0]] + rest[1..];
        assert forall k :: 1 <= k < |parts| ==> parts[k] == rest[k];
        parts
  }

  /**
   * Python `sep.join(parts)`: the pieces in order, one separator between
   * each two. `JoinLayout` gives the position of every piece.
   */
  function Join(parts: seq<string>, sep: char): (r: string)
    ensures |parts| == 0 ==> r == ""
    ensures |parts| > 0 ==> |parts[0]| <= |r| && r[..|parts[0]|] == parts[0]
    ensures |parts| > 1 ==> |parts[0]| < |r| && r[|parts[0]|] == sep
    ensures |parts| > 0 && (forall k :: 0 <= k < |parts| ==> sep !in parts[k]) ==> CountChar(r, sep) == |parts| - 1
    decreases |parts|
  {
    if |parts| == 0 then ""
    else if |parts| == 1 then
      CountCharFree(parts[0], sep);
      parts[0]
    else
      var rest := Join(parts[1..], sep);
      CountCharFree(parts[0], sep);
      CountCharAppend(parts[0], [sep], sep);
      CountCharAppend(parts[0] + [sep], rest, sep);
      assert forall k :: 0 <= k < |parts| - 1 ==> parts[1..][k] == parts[k + 1];
      parts[0] + [sep] + rest
  }

  /** The combined length of the pieces. */
  function TotalLength(ps: seq<string>): nat {
    if |ps| == 0 then 0 else |ps[0]| + TotalLength(ps[1..])
  }

  /** Where piece `k` of a join starts: after the earlier pieces and one separator each. */
  function PieceStart(parts: seq<string>, k: nat): nat
    requires k <= |parts|
  {
    TotalLength(parts[..k]) + k
  }

  lemma PieceStartShift(parts: seq<string>, k: nat)
    requires 1 <= k <= |parts|
    ensures PieceStart(parts, k) == |parts[0]| + 1 + PieceStart(parts[1..], k - 1)
  {
    assert parts[..k][0] == parts[0];
    assert parts[..k][1..] == parts[1..][..k - 1];
  }

  /**
   * `r` is `parts` laid out piece by piece: piece `k` occupies the positions
   * from `PieceStart(parts, k)` on, a separator stands right after every
   * piece but the last, and nothing follows the last piece.
   */
  predicate LaidOut(r: string, parts: seq<string>, sep: char) {
    && |parts| > 0
    && |r| + 1 == PieceStart(parts, |parts|)
    && (forall k {:trigger parts[k]} :: 0 <= k < |parts| ==>
          PieceStart(parts, k) + |parts[k]| <= |r|
          && r[PieceStart(parts, k)..PieceStart(parts, k) + |parts[k]|] == parts[k])
    && (forall k {:trigger parts[k]} :: 0 <= k < |parts| - 1 ==>
          PieceStart(parts, k) + |parts[k]| < |r| && r[PieceStart(parts, k) + |parts[k]|] == sep)
  }

  /** A slice of `rest` reappears, shifted, in `p0 + [sep] + rest`. */
  lemma SliceAfter(p0: string, sep: char, rest: string, st: nat, piece: string)
    requires st + |piece| <= |rest| && rest[st..st + |piece|] == piece
    ensures (p0 + [sep] + rest)[|p0| + 1 + st..|p0| + 1 + st + |piece|] == piece
  {
    assert (p0 + [sep] + rest)[|p0| + 1..] == rest;
  }

  /** Putting a piece and a separator in front of a laid-out join lays out the longer list. */
  lemma LaidOutCons(parts: seq<string>, sep: char, rest: string)
    requires |parts| > 1 && LaidOut(rest, parts[1..], sep)
    ensures LaidOut(parts[0] + [sep] + rest, parts, sep)
  {
    var r, tail := parts[0] + [sep] + rest, parts[1..];
    PieceStartShift(parts, |parts|);
    assert r[..|parts[0]|] == parts[0];
    forall k {:trigger parts[k]} | 1 <= k < |parts|
      ensures PieceStart(parts, k) + |parts[k]| <= |r|
      ensures r[PieceStart(parts, k)..PieceStart(parts, k) + |parts[k]|] == parts[k]
      ensures k < |parts| - 1 ==> PieceStart(parts, k) + |parts[k]| < |r|
      ensures k < |parts| - 1 ==> r[PieceStart(parts, k) + |parts[k]|] == sep
    {
      assert tail[k - 1] == parts[k];
      PieceStartShift(parts, k);
      var st := PieceStart(tail, k - 1);
      SliceAfter(parts[0], sep, rest, st, parts[k]);
      if k < |parts| - 1 {
        assert rest[st + |tail[k - 1]|] == sep;
        assert r[|parts[0]| + 1 + st + |parts[k]|] == rest[st + |parts[k]|];
      }
    }
  }

  /** The join of one or more pieces is those pieces laid out with one separator between each two. */
  lemma {:induction false} JoinLayout(parts: seq<string>, sep: char)
    requires |parts| > 0
    ensures LaidOut(Join(parts, sep), parts, sep)
    decreases |parts|
  {
    if |parts| == 1 {
      assert parts[..1][1..] == [];
      assert TotalLength(parts[..1]) == |parts[0]|;
      assert Join(parts, sep)[0..|parts[0]|] == parts[0];
    } else {
      JoinLayout(parts[1..], sep);
      LaidOutCons(parts, sep, Join(parts[1..], sep));
    }
  }

  lemma {:induction false} CountCharAppend(a: string, b: string, c: char)
    ensures CountChar(a + b, c) == CountChar(a, c) + CountChar(b, c)
    decreases |a|
  {
    if |a| == 0 {
      assert a + b == b;
    } else {
      assert (a + b)[0] == a[0] && (a + b)[1..] == a[1..] + b;
      CountCharAppend(a[1..], b, c);
    }
  }

  lemma {:induction false} CountCharFree(s: string, c: char)
    ensures c !in s ==> CountChar(s, c) == 0
    decreases |s|
  {
    if |s| > 0 {
      CountCharFree(s[1..], c);
      assert c !in s ==> c !in s[1..];
    }
  }

  /** Re-joining the pieces with the separator gives back the original string. */
  lemma {:induction false} JoinSplit(s: string, sep: char)
    ensures Join(Split(s, sep), sep) == s
    decreases |s|
  {
    if |s| > 0 {
      var rest := Split(s[1..], sep);
      JoinSplit(s[1..], sep);
      if s[0] != sep && |rest| > 1 {
        assert rest == [rest[0]] + rest[1..];
        assert Join(rest, sep) == rest[0] + [sep] + Join(rest[1..], sep);
      }
      assert s == [s[0]] + s[1..];
    }
  }

  /** Splitting `p + t`, where `p` has no separator, glues `p` onto the first piece of `t`. */
  lemma {:induction false} SplitPrefixFree(p: string, t: string, sep: char)
    requires sep !in p
    ensures Split(p + t, sep) == [p + Split(t, sep)[0]] + Split(t, sep)[1..]
    decreases |p|
  {
    if |p| > 0 {
      var q, parts := p[1..], Split(t, sep);
      assert (p + t)[0] == p[0] && (p + t)[1..] == q + t;
      SplitPrefixFree(q, t, sep);
      var rest := Split(q + t, sep);
      assert rest[0] == q + parts[0] && rest[1..] == parts[1..];
      assert [p[0]] + rest[0] == p + parts[0];
    } else {
      var parts := Split(t, sep);
      assert p + t == t;
      assert p + parts[0] == parts[0];
      assert parts == [parts[0]] + parts[1..];
    }
  }

  /** Splitting undoes joining when no part contains the separator. */
  lemma {:induction false} SplitJoin(parts: seq<string>, sep: char)
    requires |parts| >= 1
    requires forall k :: 0 <= k < |parts| ==> sep !in parts[k]
    ensures Split(Join(parts, sep), sep) == parts
    decreases |parts|
  {
    if |parts| == 1 {
      SplitPrefixFree(parts[0], "", sep);
      assert parts[0] + "" == parts[0];
    } else {
      var t := Join(parts[1..], sep);
      SplitJoin(parts[1..], sep);
      assert Split([sep] + t, sep) == [""] + Split(t, sep);
      assert parts[0] + [sep] + t == parts[0] + ([sep] + t);
      SplitPrefixFree(parts[0], [sep] + t, sep);
      assert parts[0] + "" == parts[0];
    }
  }
}

=== FILE: wrappers.dfy ===
/** Failure-carrying result types shared by the model. */
module Wrappers {

  /** A value that may be absent (Python's `None`). */
  datatype Option<+T> = None | Some(value: T)

  /** The outcome of a step that can raise: a value, or the error it raises. */
  datatype Result<+R, +E> = Success(value: R) | Failure(error: E)
}
